=== FILE: README.md ===
# MTIJ discipline records: a verified model

This project models the non-UI logic of the MTIJ student discipline app.
The app keeps a collection of discipline cases (`DisciplineRecord`). It
creates, edits, deletes, imports and backfills cases, and saves the
collection newest first. It also filters and sorts the dashboard view,
computes the headline statistics and the per-student demerit chart, and
prepares the values printed in its PDF documents. Those values are:

- dates in `DD/MM/YYYY` form;
- the report filter label;
- the table rows and the individual report rows;
- the signature-block page break;
- sanitised file names;
- the warning letter's reference number;
- the paging of the bulk case summaries.

Modules, one per file:

- `Wrappers` (wrappers.dfy): `Option` and `Result`.
- `Seqs` (seqs.dfy): order-preserving subsequences.
- `StableSort` (stable_sort.dfy): JavaScript's stable `Array.prototype.sort` with a comparator. It is modelled as an insertion sort over a strict weak order `lt(a, b)`, which means "the comparator returns a negative number". It carries proofs of sortedness, permutation, stability (records tied with any element keep their relative order) and preservation of pairwise facts such as distinct identifiers.
- `Text` (text.dfy): the string operations the app relies on. These are string order (by character value; see Left out), `toLowerCase`, `includes`, `replace` with a string pattern, `split`/`join` on one character, decimal digits and `String(n)`, and `replace(/\s+/g, '_')`.
- `Records` (records.dfy): the record, the three categories, demerit points and the weekday table.
- `Store` (store.dfy): `saveRecords`, `handleSave`, `handleEdit`, `handleDelete`, `importData` and the startup load with its seed backfill.
- `Query` (query.dfy): `sortedAndFilteredRecords`, `stats` and the chart's `demeritMap`.
- `Documents` (documents.dfy): the pure helpers of the PDF service.

The following are parameters of the model:

- the current date, the weekday of a form date, the clock's "within the last week" and "this month" tests;
- the random identifier suffix and `Date.now()`;
- the user's answer to a confirmation dialog;
- the result of parsing a JSON file;
- the row where an auto-generated table ends.

The warning letter's year is the first `-` field of the case's `date`,
not its creation time.

## Model

| member | source | states |
|---|---|---|
| Records.Demerit | App.tsx:130 | Demerit is negative; it is -20 exactly for SALAH LAKU BERAT, -10 exactly for SALAH LAKU SEDERHANA, and -5 for every other category |
| Records.DemeritOrdersSeverity | App.tsx:130 | A serious case costs more points than a moderate one, which costs more than a light one, and the demerit value determines the category |
| Records.DayName | App.tsx:128-129 | The weekday lookup gives a name from the 7-entry table exactly for indices 0..6, and `undefined` otherwise |
| Records.DayIndex | App.tsx:128 | A weekday name maps back to its position in the table; a string that is not a weekday name has no position |
| Records.DayNameRoundTrip | App.tsx:128-129 | The stored weekday name gives back the weekday it was looked up from |
| Store.NewerFirstIsOrder | App.tsx:103 | The save comparator (by `createdAt` descending, missing read as 0) is a strict weak order |
| Store.TiedIsCreatedAt | App.tsx:103 | Two records tie under the save comparator exactly when they share the same `createdAt` key |
| Store.SaveOrder | App.tsx:102-106 | Saving reorders the collection without adding or losing a record, newest first, and records with equal `createdAt` keep their relative order |
| Store.SaveOrderFacts | App.tsx:103 | The stable sort with the save comparator yields a newest-first collection and keeps the order of every group of equal `createdAt` |
| Store.SaveOrderOfOrdered | App.tsx:103 | Saving a collection that is already newest first leaves it exactly as it is |
| Store.SaveOrderIdempotent | App.tsx:103 | Saving twice gives the same collection as saving once |
| Store.SaveOrderKeepsUnique | App.tsx:103 | Saving keeps identifiers unique |
| Store.SaveOrderIds | App.tsx:103 | Saving keeps the set of identifiers |
| Store.ApplyForm | App.tsx:133-135 | An edited record keeps its `id` and `createdAt`, holds exactly the form's fields, gets the category's demerit and the date's weekday name |
| Store.EditUnchangedIsIdentity | App.tsx:187-198 | Loading a record into the form and saving it unchanged gives back the same record, provided its stored demerit and weekday were derived in the same way |
| Store.NewRecord | App.tsx:140-144 | A new case gets the `MTIJ-` identifier, the creation time, the form's fields, the category's demerit and the weekday name |
| Store.Edit | App.tsx:131-137 | Editing by `id` keeps the length and every `id` and `createdAt`; records with another `id` are unchanged; each record with the edited `id` takes the form's fields |
| Store.EditKeepsIds | App.tsx:132-137 | Editing keeps the set of identifiers and keeps them unique |
| Store.HandleSave | App.tsx:122-152 | Saving fails with the missing-fields message exactly when the student or reporter name is empty. Otherwise the result is newest first and holds the edited collection, or the old records plus the new case; records with equal `createdAt` keep their order from that collection |
| Store.HandleSaveKeepsUnique | App.tsx:140-145 | Saving keeps identifiers unique when a new case's generated identifier is not already taken |
| Store.Delete | App.tsx:205 | The filter yields exactly the records with another `id`, each as often as before and in their original order, and the `id` is gone |
| Store.HandleDelete | App.tsx:203-207 | Without confirmation nothing changes. Once confirmed, the result holds each record with another `id` as often as before and none with the `id`, newest first, with equal `createdAt` groups in the filter's order |
| Store.DeleteKeepsNewestFirst | App.tsx:205 | Filtering a newest-first collection keeps it newest first |
| Store.HandleDeleteOfOrdered | App.tsx:203-207 | On a newest-first collection the confirmed delete is exactly the filter: the re-sort moves nothing |
| Store.DeleteAbsent | App.tsx:205 | Deleting an identifier that is not present changes nothing |
| Store.DeleteIdempotent | App.tsx:205 | Deleting the same identifier twice is the same as deleting it once |
| Store.DeleteKeepsUnique | App.tsx:205 | Deleting keeps identifiers unique |
| Store.FreshOnes | App.tsx:175 | The import filter keeps, in file order, exactly the file's records whose `id` is not already known, each as often as the file holds it |
| Store.FreshOnesNone | App.tsx:175 | With no known identifiers the filter keeps the whole file |
| Store.FreshOnesKeepsUnique | App.tsx:175 | Filtering a file with unique identifiers keeps them unique |
| Store.MergeNew | App.tsx:174-176 | The merge keeps the existing records as a prefix and never overwrites one. It appends, in file order, every file record whose `id` is unknown, as often as the file holds it, and the identifiers become the union. When every file `id` is known, the result is the existing collection |
| Store.MergeNewKeepsUnique | App.tsx:174-176 | Merging two collections that each have unique identifiers gives unique identifiers, even though the file's duplicates of existing ids are dropped rather than overwritten |
| Store.Import | App.tsx:172-176 | An unparsable file or a declined confirmation leaves the collection unchanged. Otherwise the result is the merge, reordered newest first, with equal `createdAt` groups in merge order |
| Store.ImportKnownAddsNothing | App.tsx:174-176 | Importing a file whose identifiers are all known leaves a saved collection unchanged |
| Store.ExportImportRoundTrip | App.tsx:172-176 | Importing a saved collection into an empty one gives the same collection back |
| Store.Load | App.tsx:86-99 | With nothing stored, the seed is saved newest first, stable on ties. Otherwise the result holds every stored record plus, as often as the seed holds them, exactly the seed records whose `id` is not stored, and the identifiers are the union. When a seed record is missing the backfilled collection is saved newest first and stable on ties; when none is missing the stored collection is used as is |
| Query.Visible | App.tsx:217-227 | The filter keeps, in collection order and as often as the collection holds them, exactly the records that pass both the name search and the time window |
| Query.VisibleAll | App.tsx:219-226 | With an empty search and the `all` window, nothing is filtered out |
| Query.BeforeIsOrder | App.tsx:228-234 | The view comparator on name or date, in either direction, is a strict weak order |
| Query.TiedIsWithKey | App.tsx:231-233 | Two records tie under the view comparator exactly when their sort keys are equal |
| Query.View | App.tsx:215-235 | The view is a reordering of the filtered records |
| Query.ViewSpec | App.tsx:215-235 | The view holds exactly the records passing both tests, and each lower-cased name contains the lower-cased query. An empty query with `all` drops nothing. Keys follow the chosen direction, and records with equal keys keep collection order |
| Query.AddTo | App.tsx:243 | Counting into an existing key keeps the number of entries; a new key is appended at the end with its first amount |
| Query.AddToPresent | App.tsx:243 | Counting into an existing key adds the amount to that key's entry and changes no other entry |
| Query.AddStep | App.tsx:243 | One more record keeps the running tally a summary of the records seen so far |
| Query.Aggregate | App.tsx:243 | The tally has one entry per distinct key. Each entry holds that key's total over the records, and the entries are in the order the keys first occur |
| Query.SummarisesDistinct | App.tsx:243 | The tally's keys are distinct |
| Query.TallyOf | App.tsx:243 | Every record's key has an entry in the tally, holding the key's total, placed before every key first seen later |
| Query.LargerFirstIsOrder | App.tsx:244 | Comparing tallies by larger count first is a strict weak order |
| Query.Ranked | App.tsx:243-244 | The ranking is a reordering of the tally |
| Query.RankedSorted | App.tsx:244 | The ranking is in non-increasing count order |
| Query.RankedHead | App.tsx:244 | The ranking's first entry has the largest count, and every entry before it in the tally has a strictly smaller count |
| Query.TopViolation | App.tsx:242-245 | With no records the top violation is `Tiada`; otherwise it is a violation type that occurs in the records |
| Query.ComputeStats | App.tsx:237-247 | `total` is the number of records and `today` never exceeds it |
| Query.CountOnBound | App.tsx:240 | The number of records on one date is at most the number of records |
| Query.DailyCount | App.tsx:240 | `today` counts exactly the records the daily view with an empty search keeps |
| Query.TodayIsDailyView | App.tsx:240 | `today` equals the length of the daily dashboard view with no search, for any sort |
| Query.TopViolationSpec | App.tsx:242-245 | With no records the top violation is `Tiada`. Otherwise it is a type that occurs, no type occurs more often, and every type seen before its first occurrence occurs strictly less often, so ties go to the first type seen |
| Query.Leading | App.tsx:254 | Taking the leading entries gives at most the requested number |
| Query.LeadingOrdered | App.tsx:254 | The leading entries have distinct keys and non-increasing amounts |
| Query.LeadingMissing | App.tsx:254 | An entry is left out only when the full quota is taken by entries at least as large |
| Query.LeadingTotals | App.tsx:252-254 | Each leading entry is the total of a key that occurs in the records |
| Query.LeadingOmits | App.tsx:252-254 | A key that occurs but is not charted means eight bars are shown, each at least as large as its total |
| Query.ChartData | App.tsx:252-254 | The chart has at most 8 bars |
| Query.ChartSpec | App.tsx:252-254 | Each bar is the sum of absolute demerits of a student in the view. Bars have distinct names and non-increasing values. A student in the view is missing only when 8 bars are shown and each is at least the student's sum |
| Documents.FormatDateMY | services/pdfService.ts:11-15 | The date prints as `-` exactly when it is empty |
| Documents.FormatDateFields | services/pdfService.ts:13-14 | A `y-m-d` date prints as `d/m/y` |
| Documents.FormatDateReverse | services/pdfService.ts:13-14 | Splitting the printed date on `/` gives the fields back in reverse order |
| Documents.FormatDateShort | services/pdfService.ts:13-14 | A date without `-` prints as `undefined/undefined/` followed by the whole date |
| Documents.Pad2 | services/pdfService.ts:22-23 | Padding gives at least two digits whose value is the input; values below 10 get one leading `0` and others none |
| Documents.TodayMY | services/pdfService.ts:20-26 | Today's date prints as three `/` fields of digits whose values are the day, the one-based month and the year, day and month with at least two digits |
| Documents.TodayMatchesFormat | services/pdfService.ts:20-26 | Today's printed date is the printed form of today's `YYYY-MM-DD` date |
| Documents.SignatureBlock | services/pdfService.ts:31-51 | The block moves to a new page at row 20 exactly when the start row is past 250 (portrait) or 170 (landscape); otherwise it stays at the start row. Both columns fit within the page margins |
| Documents.SummarySignatureStays | services/pdfService.ts:201 | A case summary's signature block at row 130 never starts a new page, so no summary in the bulk file adds a page of its own |
| Documents.FilterLabel | services/pdfService.ts:89 | `daily`, `weekly` and `monthly` map to HARIAN, MINGGUAN and BULANAN; everything else maps to KESELURUHAN |
| Documents.FilterLabelDistinguishesWindows | services/pdfService.ts:89 | Distinct dashboard windows get distinct report labels |
| Documents.TableFileName | services/pdfService.ts:142 | The table report's file name starts with `Ringkasan_Laporan_MTIJ_`, ends with `.pdf`, and has a non-empty label between them |
| Documents.TableFileNameLabel | services/pdfService.ts:142 | The table report's file name is `Ringkasan_Laporan_MTIJ_` followed by the label and `.pdf` |
| Documents.TableBody | services/pdfService.ts:93-103 | There is one row per record. Row i has 9 cells, like the header, and begins with number i+1, then the printed date; the demerit is in the seventh cell |
| Documents.TableColumns | services/pdfService.ts:93-103 | Each row carries the record's name, class, category, violation, location and action in the header's column order |
| Documents.TableBodyAppend | services/pdfService.ts:93-94 | Rows number records by their position in the whole list, and every other cell depends on the record alone |
| Documents.TableSignature | services/pdfService.ts:139-140 | The table report's signature starts 15mm below the table on the same landscape page unless the table ends past row 155, when it moves to row 20 of a new page; the right column fits the page |
| Documents.OrElse | services/pdfService.ts:253 | `a \|\| b` on strings gives `a` unless it is empty, and is never empty when `b` is not |
| Documents.ReportRows | services/pdfService.ts:245-254 | The individual report has 8 labelled rows, and its details cell is never empty |
| Documents.ReportRowsSpec | services/pdfService.ts:245-254 | Each row pairs its label with its own field: the id, name, class, violation type, demerit and action. The date row shows the printed date and, in brackets, the weekday name, or `undefined` when the date gave no weekday; the details row shows the details or `-` |
| Documents.SafeName | services/pdfService.ts:204 | A sanitised name has no whitespace and is no longer than the name |
| Documents.SafeNameStable | services/pdfService.ts:267 | Sanitising is idempotent and leaves a name without whitespace unchanged |
| Documents.SafeNameWords | services/pdfService.ts:392 | A whitespace run between two words becomes one `_` |
| Documents.FileNamesHaveNoSpace | services/pdfService.ts:203-205 | The summary, report, letter and bulk file names contain no whitespace |
| Documents.IdRef | services/pdfService.ts:305 | The letter's reference suffix is never empty and contains no `-` |
| Documents.IdRefOfNewId | services/pdfService.ts:305 | For an identifier `MTIJ-XXXXX` made by the app, the reference suffix is `XXXXX` unless the random part contains `REC` |
| Documents.IdRefDefault | services/pdfService.ts:305 | An identifier ending in `-` falls back to the reference `001` |
| Documents.IdRefIgnoresRec | services/pdfService.ts:305 | For an identifier `MTIJ-` a b whose parts a and b hold no `R`, inserting one `REC` between them does not change the reference, because removing the first `REC` takes exactly that one |
| Documents.LetterYear | services/pdfService.ts:303 | The letter's year is the date's text up to its first `-`, or the whole date when it has none |
| Documents.LetterReference | services/pdfService.ts:306 | Splitting the reference on `/` gives `MTIJ`, `DISP`, the year and the id reference back when neither of the last two holds a `/` |
| Documents.LetterYearOfDate | services/pdfService.ts:303 | The letter's year is the year of a `y-m-d` date |
| Documents.LetterYearIsPrintedYear | services/pdfService.ts:303 | The letter's year is the last field of the printed date |
| Documents.AllSummaries | services/pdfService.ts:211-219 | An empty list gives no document. Otherwise the bulk file holds each record's summary in order, with a page break before each record after the first, and it is saved under `Ringkasan_Kes_Pukal.pdf` |
| Documents.AlternatingBreaks | services/pdfService.ts:214-216 | Alternating summaries and page breaks give one break fewer than summaries |
| Documents.BulkPageBreaks | services/pdfService.ts:211-219 | The bulk file has n-1 explicit page breaks for n records (none for none) |
| Text.StrLessTotal | App.tsx:231-232 | Any two different strings are ordered one way or the other |
| Text.StrLessTransitive | App.tsx:231-232 | String order is transitive |
| Text.StrLessIrreflexive | App.tsx:231-232 | No string is less than itself |
| Text.Lower | App.tsx:219 | Lower-casing keeps the length, maps each capital letter to its lower-case letter, keeps every other character, and leaves no capital |
| Text.Contains | App.tsx:219 | `includes` holds exactly when the needle occurs at some position |
| Text.ReplaceFirst | services/pdfService.ts:305 | A string pattern replaces only its first occurrence, and a string without it is unchanged |
| Text.Split | services/pdfService.ts:13 | Splitting gives at least one part and no part contains the separator |
| Text.SplitHead | services/pdfService.ts:303 | The first part of a split is the text before the first separator |
| Text.JoinSplit | services/pdfService.ts:13 | Joining the parts with the separator gives the string back |
| Text.SplitJoin | services/pdfService.ts:13 | Splitting parts joined by a separator they lack gives the parts back |
| Text.NatToString | services/pdfService.ts:22 | The decimal text of a number is all digits, reads back as the number, has one digit exactly below 10, and has no leading zero |
| Text.SquashSpaces | services/pdfService.ts:204 | Replacing whitespace runs leaves no whitespace and never lengthens the text |
| Text.SquashNoSpace | services/pdfService.ts:204 | Text without whitespace is unchanged |
| Text.SquashIdempotent | services/pdfService.ts:204 | Replacing whitespace runs twice is the same as once |
| Text.SquashRun | services/pdfService.ts:204 | A maximal whitespace run between two parts becomes exactly one `_` |
| StableSort.Sort | App.tsx:103 | Sorting is a permutation of its input |
| StableSort.SortIsSorted | App.tsx:103 | Under a strict weak order, no element of the sorted sequence comes after one it should precede |
| StableSort.SortIsStable | App.tsx:103 | Under a strict weak order, the elements tied with any given value keep their input order |
| StableSort.SortKeepsPairwise | App.tsx:103 | A relation holding between every two distinct positions still holds after sorting |
| StableSort.SortOfSorted | App.tsx:103 | Sorting an already sorted sequence leaves it unchanged |

## Left out

- React rendering, hooks, the sidebar and tabs, `resetForm` and `navigateTo` are UI state with no rule to state.
- `localStorage`, `JSON.parse`/`JSON.stringify`, `FileReader` and the download link are I/O. A stored value that is missing or empty is `None`; a parsed file is `Some` of its records, or `None` when it is not an array or not JSON.
- `window.confirm` is the `confirmed` parameter of `Store.HandleDelete` and `Store.Import`. The save form's `alert` is the `Err` result of `Store.HandleSave`. The import alerts are not modelled.
- JavaScript `Date` and time zones are not modelled. `toISOString` (the UTC date), `getDay`, `getDate`, `getMonth` and `getFullYear` become parameters. An unparsable date's weekday is an index outside 0..6.
- Query.InWindow: the `weekly` and `monthly` tests are predicates carried by the `Clock` value, not computed from parsed dates.
- `Math.random()` identifiers and `Date.now()` are parameters: the suffix and the creation time.
- The `setTimeout` toast has no effect on the data.
- Chart.js and jsPDF drawing, fonts, images and `splitTextToSize` are foreign library calls. `lastAutoTable.finalY` is the `tableEnd` parameter of `Documents.TableSignature`.
- `toLocaleTimeString` and its am/pm replacement are locale-dependent clock output.
- The logo fetch is browser I/O. Its failure is swallowed and changes no computed value.
- The warning letter's body text, its six-item list and its addressee lines are fixed text placement with no rule.
- Text.Lower: lower-cases ASCII capitals only. JavaScript's `toLowerCase` also maps other Unicode capitals.
- Text.StrLess: compares characters as Unicode scalar values. JavaScript compares UTF-16 code units, which gives a different order only for characters outside the Basic Multilingual Plane.
- Query.Aggregate: keeps the tally in first-seen key order and starts every key at 0. `Object.entries` lists integer-like keys first, and `acc[key] || 0` starts a key inherited from `Object.prototype` (`__proto__`, `constructor`, `toString`, `valueOf`, …) from the inherited value instead of 0; student names and violation types are not expected to be such keys.
- Records.Record: the category is one of the three declared values; a file holding another string is outside the model.
- Documents.TodayMY: takes the year as a natural number; negative years are not modelled.

=== FILE: documents.dfy ===
/** The values the PDF generators compute before drawing anything: date
    text, the report label and table rows, where the signature block goes,
    file names, the warning letter's reference, and the page sequence of the
    bulk summary document. */
module Documents {
  import opened Wrappers
  import opened Records
  import opened Text
  import Query
  import Store

  // ---------------------------------------------------------------------
  // Dates

  /** What a template literal prints for a missing value. */
  const Undefined: string := "undefined"

  /** The `i`-th element of a destructured array, `undefined` past its end. */
  function Part(parts: seq<string>, i: nat): string {
    if i < |parts| then parts[i] else Undefined
  }

  /** `formatDateMY`: `YYYY-MM-DD` to `DD/MM/YYYY`; an empty date prints as
      a dash. */
  function FormatDateMY(date: string): (r: string)
    ensures r == "-" <==> date == []
  {
    if date == [] then "-"
    else
      var p := Split(date, '-');
      Part(p, 2) + "/" + Part(p, 1) + "/" + Part(p, 0)
  }

  /** The parts of a date glued with `-`. */
  function IsoText(y: string, m: string, d: string): string {
    y + "-" + m + "-" + d
  }

  lemma JoinThree(a: string, b: string, c: string, sep: char)
    ensures Join([a, b, c], sep) == a + [sep] + b + [sep] + c
  {
    assert [a, b, c][1..] == [b, c];
    assert [b, c][1..] == [c];
    assert Join([b, c], sep) == b + [sep] + c;
  }

  /** A date with three fields comes out day first, year last. */
  lemma FormatDateFields(y: string, m: string, d: string)
    requires '-' !in y && '-' !in m && '-' !in d
    ensures FormatDateMY(IsoText(y, m, d)) == d + "/" + m + "/" + y
  {
    JoinThree(y, m, d, '-');
    SplitJoin([y, m, d], '-');
  }

  /** Splitting the printed date on `/` gives the three fields back in
      reverse order. */
  lemma FormatDateReverse(y: string, m: string, d: string)
    requires '-' !in y && '-' !in m && '-' !in d
    requires '/' !in y && '/' !in m && '/' !in d
    ensures Split(FormatDateMY(IsoText(y, m, d)), '/') == [d, m, y]
  {
    FormatDateFields(y, m, d);
    JoinThree(d, m, y, '/');
    SplitJoin([d, m, y], '/');
  }

  /** A date without separators has no day or month: both print as
      `undefined`. */
  lemma FormatDateShort(y: string)
    requires y != [] && '-' !in y
    ensures FormatDateMY(y) == Undefined + "/" + Undefined + "/" + y
  {
    SplitPlain(y, '-');
  }

  /** `String(n).padStart(2, '0')`. */
  function Pad2(n: nat): (r: string)
    ensures |r| >= 2 && AllDigits(r)
    ensures ParseDecimal(r) == n
    ensures n < 10 ==> r == "0" + NatToString(n)
    ensures n >= 10 ==> r == NatToString(n)
  {
    var s := NatToString(n);
    if |s| < 2 then
      ParseLeadingZero(s);
      "0" + s
    else s
  }

  /** `getTodayMY` from the clock's day of the month, zero-based month and
      year. */
  function TodayMY(day: nat, month0: nat, year: nat): (r: string)
    ensures var p := Split(r, '/');
      && |p| == 3 && AllDigits(p[0]) && AllDigits(p[1]) && AllDigits(p[2])
      && |p[0]| >= 2 && |p[1]| >= 2
      && ParseDecimal(p[0]) == day && ParseDecimal(p[1]) == month0 + 1 && ParseDecimal(p[2]) == year
  {
    var d, m, y := Pad2(day), Pad2(month0 + 1), NatToString(year);
    DigitsLackChar(d, '/');
    DigitsLackChar(m, '/');
    DigitsLackChar(y, '/');
    JoinThree(d, m, y, '/');
    SplitJoin([d, m, y], '/');
    d + "/" + m + "/" + y
  }

  /** A `YYYY-MM-DD` date as the date input produces it. */
  function IsoDate(year: nat, month: nat, day: nat): string {
    IsoText(NatToString(year), Pad2(month), Pad2(day))
  }

  lemma DigitsLackChar(s: string, c: char)
    requires AllDigits(s) && !IsDigit(c)
    ensures c !in s
  {
  }

  /** The print date and a record's date use one format: the date of today
      in input form, converted, is the text of `getTodayMY`. */
  lemma TodayMatchesFormat(day: nat, month: nat, year: nat)
    requires month >= 1
    ensures FormatDateMY(IsoDate(year, month, day)) == TodayMY(day, month - 1, year)
  {
    var y, m, d := NatToString(year), Pad2(month), Pad2(day);
    DigitsLackChar(y, '-');
    DigitsLackChar(m, '-');
    DigitsLackChar(d, '-');
    FormatDateFields(y, m, d);
  }

  // ---------------------------------------------------------------------
  // The signature block

  /** Where the two signature columns are drawn, in millimetres. */
  datatype Placement = Placement(newPage: bool, top: real, rightX: real)

  const Margin: real := 20.0
  /** The row where a block moved to a new page starts. */
  const NewPageTop: real := 20.0
  const LineLength: real := 60.0
  const CaptionGap: real := 20.0

  function PageWidth(landscape: bool): real {
    if landscape then 297.0 else 210.0
  }

  function PageHeight(landscape: bool): real {
    if landscape then 210.0 else 297.0
  }

  /** The lowest start row that still fits the block on the current page. */
  function BreakRow(landscape: bool): real {
    if landscape then 170.0 else 250.0
  }

  /** `drawSignatureBlock`: a start row below the break row moves the block
      to the top of a new page; the right column sits further right on a
      landscape page. */
  function SignatureBlock(startY: real, landscape: bool): (p: Placement)
    ensures p.newPage <==> startY > BreakRow(landscape)
    ensures !p.newPage ==> p.top == startY
    ensures p.newPage ==> p.top == NewPageTop
    ensures p.top <= BreakRow(landscape)
    ensures p.top + CaptionGap <= PageHeight(landscape)
    ensures Margin + LineLength < p.rightX
    ensures p.rightX + LineLength <= PageWidth(landscape) - Margin
  {
    var top := if startY > BreakRow(landscape) then NewPageTop else startY;
    Placement(startY > BreakRow(landscape), top, if landscape then 180.0 else 130.0)
  }

  /** The top margin of a case summary page. */
  const SummaryTop: real := 15.0

  /** A case summary's signature block (at 15 + 115) never moves to a new
      page. */
  lemma SummarySignatureStays()
    ensures !SignatureBlock(SummaryTop + 115.0, false).newPage
  {
  }

  // ---------------------------------------------------------------------
  // The table report

  /** `catLabel`: the report title for the filter value. */
  function FilterLabel(filterType: string): (l: string)
    ensures l == "HARIAN" <==> filterType == "daily"
    ensures l == "MINGGUAN" <==> filterType == "weekly"
    ensures l == "BULANAN" <==> filterType == "monthly"
    ensures l == "KESELURUHAN" <==> filterType !in {"daily", "weekly", "monthly"}
  {
    if filterType == "daily" then "HARIAN"
    else if filterType == "weekly" then "MINGGUAN"
    else if filterType == "monthly" then "BULANAN"
    else "KESELURUHAN"
  }

  /** Each dashboard window gets its own label. */
  lemma FilterLabelDistinguishesWindows(a: Query.Window, b: Query.Window)
    ensures FilterLabel(Query.WindowName(a)) == FilterLabel(Query.WindowName(b)) <==> a == b
  {
  }

  const TablePrefix: string := "Ringkasan_Laporan_MTIJ_"
  const Pdf: string := ".pdf"

  function TableFileName(filterType: string): (f: string)
    ensures |f| > |TablePrefix| + |Pdf|
    ensures f[..|TablePrefix|] == TablePrefix && f[|f| - |Pdf|..] == Pdf
  {
    TablePrefix + FilterLabel(filterType) + Pdf
  }

  /** The label can be read back from the file name. */
  lemma TableFileNameLabel(filterType: string)
    ensures var f := TableFileName(filterType);
      f[|TablePrefix|..|f| - |Pdf|] == FilterLabel(filterType)
  {
  }

  /** A table cell: numbers are kept as numbers. */
  datatype Cell = NumCell(n: int) | TextCell(s: string)

  const TableHeader: seq<string> :=
    ["No", "Tarikh", "Nama Murid", "Kelas", "Kategori", "Salah Laku", "Mata", "Lokasi", "Tindakan"]

  function TableRow(index: nat, r: Record): seq<Cell> {
    [NumCell(index + 1), TextCell(FormatDateMY(r.date)), TextCell(r.studentName),
     TextCell(r.studentClass), TextCell(CategoryName(r.category)), TextCell(r.violationType),
     NumCell(r.demerit), TextCell(r.location), TextCell(r.actionTaken)]
  }

  /** The table body: one row per record, numbered from 1, with one cell
      per header label. */
  function TableBody(records: seq<Record>): (rows: seq<seq<Cell>>)
    ensures |rows| == |records|
    ensures forall i :: 0 <= i < |rows| ==> |rows[i]| == |TableHeader|
    ensures forall i :: 0 <= i < |rows| ==> rows[i][0] == NumCell(i + 1)
    ensures forall i :: 0 <= i < |rows| ==> rows[i][1] == TextCell(FormatDateMY(records[i].date))
    ensures forall i :: 0 <= i < |rows| ==> rows[i][6] == NumCell(records[i].demerit)
  {
    seq(|records|, i requires 0 <= i < |records| => TableRow(i, records[i]))
  }

  /** The columns hold what their header names: the cell under each label
      is that field of the row's record. */
  lemma TableColumns(records: seq<Record>, i: nat)
    requires i < |records|
    ensures var row := TableBody(records)[i]; var r := records[i];
      forall c :: 0 <= c < |TableHeader| ==>
        && (TableHeader[c] == "Nama Murid" <==> c == 2) && (TableHeader[c] == "Kelas" <==> c == 3)
        && (TableHeader[c] == "Kategori" <==> c == 4) && (TableHeader[c] == "Salah Laku" <==> c == 5)
        && (TableHeader[c] == "Lokasi" <==> c == 7) && (TableHeader[c] == "Tindakan" <==> c == 8)
    ensures TableBody(records)[i][2] == TextCell(records[i].studentName)
    ensures TableBody(records)[i][3] == TextCell(records[i].studentClass)
    ensures TableBody(records)[i][4] == TextCell(CategoryName(records[i].category))
    ensures TableBody(records)[i][5] == TextCell(records[i].violationType)
    ensures TableBody(records)[i][7] == TextCell(records[i].location)
    ensures TableBody(records)[i][8] == TextCell(records[i].actionTaken)
  {
  }

  /** Appending records appends rows numbered after the existing ones. */
  lemma TableBodyAppend(a: seq<Record>, b: seq<Record>, j: nat)
    requires j < |b|
    ensures TableBody(a + b)[|a| + j][0] == NumCell(|a| + j + 1)
    ensures TableBody(a + b)[|a| + j][1..] == TableBody(b)[j][1..]
  {
    assert (a + b)[|a| + j] == b[j];
  }

  /** The end of the table plus 15mm, where its signature block starts. */
  function TableSignature(tableEnd: real): (p: Placement)
    ensures p.newPage <==> tableEnd > 155.0
    ensures !p.newPage ==> p.top == tableEnd + 15.0
    ensures p.newPage ==> p.top == NewPageTop
    ensures p.rightX + LineLength <= PageWidth(true) - Margin
  {
    SignatureBlock(tableEnd + 15.0, true)
  }

  // ---------------------------------------------------------------------
  // The individual report

  /** `value || fallback` for a text value. */
  function OrElse(value: string, fallback: string): (r: string)
    ensures value != [] ==> r == value
    ensures value == [] ==> r == fallback
    ensures fallback != [] ==> r != []
  {
    if value == [] then fallback else value
  }

  function DayText(day: Option<string>): string {
    match day
    case Some(d) => d
    case None => Undefined
  }

  const ReportLabels: seq<string> :=
    ["ID Rekod", "Nama Murid", "Kelas", "Tarikh", "Jenis Kesalahan", "Mata Demerit", "Tindakan", "Butiran"]

  /** The two-column body of the individual report. */
  function ReportRows(r: Record): (rows: seq<(string, Cell)>)
    ensures |rows| == |ReportLabels|
    ensures forall i :: 0 <= i < |rows| ==> rows[i].0 == ReportLabels[i]
    ensures rows[7].1.TextCell? && rows[7].1.s != []
  {
    [("ID Rekod", TextCell(r.id)),
     ("Nama Murid", TextCell(r.studentName)),
     ("Kelas", TextCell(r.studentClass)),
     ("Tarikh", TextCell(FormatDateMY(r.date) + " (" + DayText(r.day) + ")")),
     ("Jenis Kesalahan", TextCell(r.violationType)),
     ("Mata Demerit", NumCell(r.demerit)),
     ("Tindakan", TextCell(r.actionTaken)),
     ("Butiran", TextCell(OrElse(r.details, "-")))]
  }

  /** Each labelled row shows its own field of the record. The date row
      names the weekday looked up when the case was saved, or `undefined`
      when the date gave no weekday; the details row falls back to a dash. */
  lemma ReportRowsSpec(r: Record, weekday: int)
    ensures ReportRows(r)[0] == ("ID Rekod", TextCell(r.id))
    ensures ReportRows(r)[1] == ("Nama Murid", TextCell(r.studentName))
    ensures ReportRows(r)[2] == ("Kelas", TextCell(r.studentClass))
    ensures ReportRows(r)[4] == ("Jenis Kesalahan", TextCell(r.violationType))
    ensures ReportRows(r)[5] == ("Mata Demerit", NumCell(r.demerit))
    ensures ReportRows(r)[6] == ("Tindakan", TextCell(r.actionTaken))
    ensures r.day == DayName(weekday) ==>
      ReportRows(r)[3] == ("Tarikh", TextCell(FormatDateMY(r.date) + " ("
        + (if 0 <= weekday < 7 then DayNames[weekday] else "undefined") + ")"))
    ensures ReportRows(r)[7] == ("Butiran", TextCell(if r.details == [] then "-" else r.details))
  {
  }

  // ---------------------------------------------------------------------
  // File names

  /** `name.replace(/\s+/g, '_')`. */
  function SafeName(name: string): (r: string)
    ensures NoSpace(r)
    ensures |r| <= |name|
  {
    SquashSpaces(name)
  }

  function SummaryFileName(name: string): string {
    "Ringkasan_" + SafeName(name) + Pdf
  }

  function ReportFileName(name: string): string {
    "Laporan_" + SafeName(name) + Pdf
  }

  function LetterFileName(name: string): string {
    "Surat_Disiplin_" + SafeName(name) + Pdf
  }

  const BulkFileName: string := "Ringkasan_Kes_Pukal.pdf"

  lemma NoSpaceConcat(a: string, b: string)
    requires NoSpace(a) && NoSpace(b)
    ensures NoSpace(a + b)
  {
  }

  /** No generated file name contains whitespace. */
  lemma FileNamesHaveNoSpace(name: string)
    ensures NoSpace(SummaryFileName(name))
    ensures NoSpace(ReportFileName(name))
    ensures NoSpace(LetterFileName(name))
    ensures NoSpace(BulkFileName)
  {
    assert NoSpace("Ringkasan_") by {}
    assert NoSpace("Laporan_") by {}
    assert NoSpace("Surat_Disiplin_") by {}
    PrefixedNoSpace("Ringkasan_", name);
    PrefixedNoSpace("Laporan_", name);
    PrefixedNoSpace("Surat_Disiplin_", name);
  }

  lemma PrefixedNoSpace(prefix: string, name: string)
    requires NoSpace(prefix)
    ensures NoSpace(prefix + SafeName(name) + Pdf)
  {
    var s := SafeName(name);
    assert NoSpace(Pdf) by {}
    NoSpaceConcat(prefix, s);
    NoSpaceConcat(prefix + s, Pdf);
  }

  /** Sanitising an already sanitised name changes nothing, and a name
      without whitespace is kept as it is. */
  lemma SafeNameStable(name: string)
    ensures SafeName(SafeName(name)) == SafeName(name)
    ensures NoSpace(name) ==> SafeName(name) == name
  {
    SquashIdempotent(name);
    if NoSpace(name) {
      SquashNoSpace(name);
    }
  }

  /** Each whitespace run between two words becomes one underscore. */
  lemma SafeNameWords(a: string, w: string, b: string)
    requires NoSpace(a) && NoSpace(b)
    requires |w| > 0 && forall i :: 0 <= i < |w| ==> IsSpace(w[i])
    ensures SafeName(a + w + b) == a + "_" + b
  {
    assert a + w + b == a + (w + b);
    SquashRun(a, w, b);
    SquashNoSpace(a);
    SquashNoSpace(b);
  }

  // ---------------------------------------------------------------------
  // The warning letter's reference

  /** The first `-` field of the record date. */
  function LetterYear(date: string): (y: string)
    ensures '-' !in y
    ensures |y| <= |date| && y == date[..|y|]
    ensures |y| < |date| ==> date[|y|] == '-'
  {
    SplitHead(date, '-');
    Split(date, '-')[0]
  }

  const DefaultRef: string := "001"

  /** The last `-` field of the id after its first `REC` is removed, or
      `001` when that field is empty. */
  function IdRef(id: string): (r: string)
    ensures r != [] && '-' !in r
  {
    var parts := Split(ReplaceFirst(id, "REC", ""), '-');
    OrElse(parts[|parts| - 1], DefaultRef)
  }

  /** `MTIJ/DISP/<year>/<idRef>`: its `/` fields give the year and the
      reference back when neither holds a `/`. */
  function LetterReference(r: Record): (ref: string)
    ensures '/' !in LetterYear(r.date) && '/' !in IdRef(r.id) ==>
      Split(ref, '/') == ["MTIJ", "DISP", LetterYear(r.date), IdRef(r.id)]
  {
    var y, n := LetterYear(r.date), IdRef(r.id);
    ReferenceFields(y, n);
    "MTIJ/DISP/" + y + "/" + n
  }

  lemma ReferenceFields(y: string, n: string)
    ensures '/' !in y && '/' !in n ==>
      Split("MTIJ/DISP/" + y + "/" + n, '/') == ["MTIJ", "DISP", y, n]
  {
    var parts := ["MTIJ", "DISP", y, n];
    assert parts[1..] == ["DISP", y, n];
    JoinThree("DISP", y, n, '/');
    assert Join(parts, '/') == "MTIJ/DISP/" + y + "/" + n;
    if '/' !in y && '/' !in n {
      SplitJoin(parts, '/');
    }
  }

  /** The year of a `YYYY-MM-DD` date is its first field. */
  lemma LetterYearOfDate(y: string, m: string, d: string)
    requires '-' !in y && '-' !in m && '-' !in d
    ensures LetterYear(IsoText(y, m, d)) == y
  {
    JoinThree(y, m, d, '-');
    SplitJoin([y, m, d], '-');
  }

  /** The letter's year is the year the printed date ends with. */
  lemma LetterYearIsPrintedYear(date: string)
    requires date != []
    ensures exists prefix :: FormatDateMY(date) == prefix + "/" + LetterYear(date)
  {
    var p := Split(date, '-');
    var prefix := Part(p, 2) + "/" + Part(p, 1);
    assert FormatDateMY(date) == prefix + "/" + LetterYear(date);
  }

  /** `REC` cannot start at a position holding another letter. */
  lemma NoRecBefore(s: string, k: int)
    requires forall j :: 0 <= j < k && j < |s| ==> s[j] != 'R'
    ensures forall j :: j < k ==> !OccursAt(s, "REC", j)
  {
    forall j | j < k
      ensures !OccursAt(s, "REC", j)
    {
      if 0 <= j && j + 3 <= |s| {
        assert s[j..j + 3][0] == s[j];
      }
    }
  }

  lemma NoRecInPlain(s: string)
    requires 'R' !in s
    ensures forall j :: !OccursAt(s, "REC", j)
  {
    NoRecBefore(s, |s|);
  }

  /** A `REC` in text that follows a prefix without `R` lies in the text. */
  lemma NoRecAfter(prefix: string, s: string)
    requires 'R' !in prefix && !Contains(s, "REC")
    ensures forall j :: !OccursAt(prefix + s, "REC", j)
  {
    var t := prefix + s;
    NoRecBefore(t, |prefix|);
    forall j | |prefix| <= j
      ensures OccursAt(t, "REC", j) == OccursAt(s, "REC", j - |prefix|)
    {
      if j + 3 <= |t| {
        assert t[j..j + 3] == s[j - |prefix|..j - |prefix| + 3];
      }
    }
  }

  /** For an id generated by the application the reference is the part
      after `MTIJ-`, unless the random part happens to contain `REC`. */
  lemma IdRefOfNewId(suffix: string)
    requires suffix != [] && '-' !in suffix && !Contains(suffix, "REC")
    ensures IdRef(Store.NewId(suffix)) == suffix
  {
    var id := Store.NewId(suffix);
    assert id == "MTIJ-" + suffix;
    NoRecAfter("MTIJ-", suffix);
    assert id == "MTIJ" + ['-'] + suffix;
    SplitCons("MTIJ", suffix, '-');
    SplitPlain(suffix, '-');
  }

  /** Text ending in the separator splits into a last part that is empty. */
  lemma {:induction false} SplitEndsEmpty(t: string, sep: char)
    ensures var parts := Split(t + [sep], sep); |parts| >= 2 && parts[|parts| - 1] == []
    decreases |t|
  {
    var s := t + [sep];
    if t != [] {
      assert s[1..] == t[1..] + [sep];
      SplitEndsEmpty(t[1..], sep);
    }
  }

  /** An id that ends in a separator falls back to the default reference. */
  lemma IdRefDefault(prefix: string)
    ensures IdRef(prefix + "-") == DefaultRef
  {
    var s := prefix + "-";
    var i := FindFrom(s, "REC", 0);
    if i < 0 {
      SplitEndsEmpty(prefix, '-');
    } else {
      // The removed `REC` ends with `C`, so the final `-` survives it.
      assert s[i..i + 3] == "REC";
      assert s[i + 2] == s[i..i + 3][2] == 'C';
      assert s[|s| - 1] == '-';
      assert i + 3 <= |s| - 1;
      var t := s[..i] + s[i + 3..|s| - 1];
      assert s[i + 3..] == s[i + 3..|s| - 1] + "-";
      assert ReplaceFirst(s, "REC", "") == s[..i] + s[i + 3..];
      assert s[..i] + s[i + 3..] == t + "-";
      SplitEndsEmpty(t, '-');
    }
  }

  /** The reference does not identify the record: an id and the same id
      with one `REC` inserted share their reference. */
  lemma IdRefIgnoresRec(a: string, b: string)
    requires 'R' !in a && 'R' !in b
    ensures IdRef("MTIJ-" + a + "REC" + b) == IdRef("MTIJ-" + a + b)
  {
    var p := "MTIJ-" + a;
    var id := p + "REC" + b;
    assert 'R' !in p;
    assert id[|p|..|p| + 3] == "REC";
    assert OccursAt(id, "REC", |p|);
    assert forall j :: 0 <= j < |p| ==> id[j] == p[j];
    NoRecBefore(id, |p|);
    assert id[..|p|] == p && id[|p| + 3..] == b;
    assert ReplaceFirst(id, "REC", "") == p + b;
    assert 'R' !in p + b;
    NoRecInPlain(p + b);
    assert p + b == "MTIJ-" + a + b;
  }

  // ---------------------------------------------------------------------
  // The bulk summary document

  /** What happens to the shared document, in order. */
  datatype PageEvent = AddPage | DrawSummary(record: Record)

  datatype Bundle = Bundle(events: seq<PageEvent>, fileName: string)

  /** `generateAllSummaries`: nothing for an empty list, otherwise one
      summary per record with a page break before every one but the first,
      saved under one file name. */
  method AllSummaries(records: seq<Record>) returns (b: Option<Bundle>)
    ensures b.None? <==> records == []
    ensures b.Some? ==> b.value.fileName == BulkFileName
    ensures b.Some? ==> |b.value.events| == 2 * |records| - 1
    ensures b.Some? ==> forall i :: 0 <= i < |records| ==> b.value.events[2 * i] == DrawSummary(records[i])
    ensures b.Some? ==> forall i :: 0 < i < |records| ==> b.value.events[2 * i - 1] == AddPage
  {
    if |records| == 0 {
      return None;
    }
    var events: seq<PageEvent> := [];
    for i := 0 to |records|
      invariant |events| == if i == 0 then 0 else 2 * i - 1
      invariant forall k :: 0 <= k < i ==> events[2 * k] == DrawSummary(records[k])
      invariant forall k :: 0 < k < i ==> events[2 * k - 1] == AddPage
    {
      if i > 0 {
        events := events + [AddPage];
      }
      events := events + [DrawSummary(records[i])];
    }
    b := Some(Bundle(events, BulkFileName));
  }

  function PageBreaks(events: seq<PageEvent>): nat {
    if events == [] then 0
    else (if events[0] == AddPage then 1 else 0) + PageBreaks(events[1..])
  }

  /** Alternating summaries and breaks, starting and ending with a summary. */
  ghost predicate Alternating(events: seq<PageEvent>, records: seq<Record>) {
    && |records| >= 1
    && |events| == 2 * |records| - 1
    && (forall i :: 0 <= i < |records| ==> events[2 * i] == DrawSummary(records[i]))
    && (forall i :: 0 < i < |records| ==> events[2 * i - 1] == AddPage)
  }

  /** `n` records take `n - 1` explicit page breaks; with the summary
      signature never breaking, that is one page per record. */
  lemma {:induction false} AlternatingBreaks(events: seq<PageEvent>, records: seq<Record>)
    requires Alternating(events, records)
    ensures PageBreaks(events) == |records| - 1
    decreases |records|
  {
    if |records| > 1 {
      var rest := events[2..];
      assert events[0] == DrawSummary(records[0]);
      var one := 1;
      assert events[2 * one - 1] == AddPage;
      assert Alternating(rest, records[1..]) by {
        forall i | 0 <= i < |records| - 1
          ensures rest[2 * i] == DrawSummary(records[1..][i])
        {
          assert rest[2 * i] == events[2 * (i + 1)];
        }
        forall i | 0 < i < |records| - 1
          ensures rest[2 * i - 1] == AddPage
        {
          assert rest[2 * i - 1] == events[2 * (i + 1) - 1];
        }
      }
      AlternatingBreaks(rest, records[1..]);
      assert events[1..][1..] == rest;
    } else {
      assert events == [DrawSummary(records[0])];
    }
  }

  /** The bulk document has one page per record. */
  method BulkPageBreaks(records: seq<Record>) returns (breaks: nat)
    ensures records == [] ==> breaks == 0
    ensures records != [] ==> breaks == |records| - 1
  {
    var b := AllSummaries(records);
    if b.None? {
      return 0;
    }
    AlternatingBreaks(b.value.events, records);
    breaks := PageBreaks(b.value.events);
  }
}

=== FILE: query.dfy ===
/** The dashboard's view of the collection: search and time-window
    filtering, the sort chosen by the user, the three headline statistics
    and the per-student demerit chart. The wall clock enters only through a
    `Clock` value. */
module Query {
  import opened Wrappers
  import opened Records
  import opened Text
  import opened Seqs
  import StableSort

  // ---------------------------------------------------------------------
  // Filtering

  /** The time window of the dashboard filter. */
  datatype Window = Daily | Weekly | Monthly | All

  /** The filter value as the application names it. */
  function WindowName(w: Window): string {
    match w
    case Daily => "daily"
    case Weekly => "weekly"
    case Monthly => "monthly"
    case All => "all"
  }

  /** What the filter needs from the clock: today's date in `YYYY-MM-DD`
      form, whether a stored date is no earlier than the moment seven days
      ago, and whether it falls in the current calendar month. */
  datatype Clock = Clock(today: string, inLastWeek: string -> bool, inThisMonth: string -> bool)

  datatype SortKey = ByName | ByDate

  datatype Direction = Asc | Desc

  datatype ViewConfig = ViewConfig(query: string, window: Window, key: SortKey, dir: Direction)

  /** The search test: an empty query matches every record; otherwise the
      lower-cased name must contain the lower-cased query. */
  predicate MatchesQuery(r: Record, query: string) {
    query == [] || Contains(Lower(r.studentName), Lower(query))
  }

  predicate InWindow(r: Record, w: Window, clock: Clock) {
    match w
    case Daily => r.date == clock.today
    case Weekly => clock.inLastWeek(r.date)
    case Monthly => clock.inThisMonth(r.date)
    case All => true
  }

  /** Both tests of the filter, applied together. */
  predicate Keep(r: Record, cfg: ViewConfig, clock: Clock) {
    MatchesQuery(r, cfg.query) && InWindow(r, cfg.window, clock)
  }

  /** The records passing the filter, in collection order. */
  function Visible(records: seq<Record>, cfg: ViewConfig, clock: Clock): (r: seq<Record>)
    ensures IsSubsequence(r, records)
    ensures forall x :: multiset(r)[x] == if Keep(x, cfg, clock) then multiset(records)[x] else 0
    ensures forall x :: x in r <==> x in records && Keep(x, cfg, clock)
  {
    if records == [] then []
    else
      assert records == [records[0]] + records[1..];
      if Keep(records[0], cfg, clock) then [records[0]] + Visible(records[1..], cfg, clock)
      else Visible(records[1..], cfg, clock)
  }

  /** With no search text and the `all` window nothing is filtered out. */
  lemma {:induction false} VisibleAll(records: seq<Record>, cfg: ViewConfig, clock: Clock)
    requires cfg.query == [] && cfg.window == All
    ensures Visible(records, cfg, clock) == records
  {
    if records != [] {
      VisibleAll(records[1..], cfg, clock);
    }
  }

  // ---------------------------------------------------------------------
  // Sorting

  function KeyOf(r: Record, k: SortKey): string {
    match k
    case ByName => r.studentName
    case ByDate => r.date
  }

  /** The view comparator as a precedence relation: ascending puts the
      smaller key first, descending the larger; equal keys compare as 0. */
  function Before(k: SortKey, d: Direction): (Record, Record) -> bool {
    match d
    case Asc => (a: Record, b: Record) => StrLess(KeyOf(a, k), KeyOf(b, k))
    case Desc => (a: Record, b: Record) => StrLess(KeyOf(b, k), KeyOf(a, k))
  }

  /** `a` may come before `b` under the chosen direction. */
  predicate InOrder(a: string, b: string, d: Direction) {
    match d
    case Asc => !StrLess(b, a)
    case Desc => !StrLess(a, b)
  }

  lemma BeforeIsOrder(k: SortKey, d: Direction)
    ensures StableSort.StrictWeakOrder(Before(k, d))
  {
    var lt := Before(k, d);
    forall a: Record
      ensures !lt(a, a)
    {
      StrLessIrreflexive(KeyOf(a, k));
    }
    forall a: Record, b: Record, c: Record | lt(a, b) && lt(b, c)
      ensures lt(a, c)
    {
      var x, y, z := KeyOf(a, k), KeyOf(b, k), KeyOf(c, k);
      if d == Asc {
        StrLessTransitive(x, y, z);
      } else {
        StrLessTransitive(z, y, x);
      }
    }
    forall a: Record, b: Record, c: Record | lt(a, c)
      ensures lt(a, b) || lt(b, c)
    {
      var x, y, z := KeyOf(a, k), KeyOf(b, k), KeyOf(c, k);
      StrLessTotal(x, y);
      StrLessTotal(y, z);
      if d == Asc {
        if StrLess(y, x) {
          StrLessTransitive(y, x, z);
        }
      } else {
        if StrLess(x, y) {
          StrLessTransitive(z, x, y);
        }
      }
    }
  }

  /** The records whose sort key is `v`, in order. */
  function WithKey(s: seq<Record>, k: SortKey, v: string): seq<Record> {
    if s == [] then []
    else (if KeyOf(s[0], k) == v then [s[0]] else []) + WithKey(s[1..], k, v)
  }

  /** A record whose sort key is `v`, used to name a group of ties. */
  function KeyProbe(k: SortKey, v: string): (r: Record)
    ensures KeyOf(r, k) == v
  {
    var blank := Record("", "", "", None, "", "", Ringan, "", 0, "", "", "", "", None);
    match k
    case ByName => blank.(studentName := v)
    case ByDate => blank.(date := v)
  }

  lemma {:induction false} TiedIsWithKey(s: seq<Record>, k: SortKey, d: Direction, x: Record)
    ensures StableSort.TiedWith(s, x, Before(k, d)) == WithKey(s, k, KeyOf(x, k))
  {
    if s != [] {
      StrLessTotal(KeyOf(x, k), KeyOf(s[0], k));
      StrLessIrreflexive(KeyOf(x, k));
      TiedIsWithKey(s[1..], k, d, x);
    }
  }

  /** `sortedAndFilteredRecords`: the filtered records, stably sorted. */
  function View(records: seq<Record>, cfg: ViewConfig, clock: Clock): (r: seq<Record>)
    ensures multiset(r) == multiset(Visible(records, cfg, clock))
  {
    StableSort.Sort(Visible(records, cfg, clock), Before(cfg.key, cfg.dir))
  }

  /** The view is a reordering of the filtered records: it holds exactly
      the records passing both tests, each name contains the query, nothing
      is dropped without search text and window, the keys follow the
      chosen direction, and records with equal keys keep collection order. */
  lemma ViewSpec(records: seq<Record>, cfg: ViewConfig, clock: Clock)
    ensures var r := View(records, cfg, clock);
      forall x :: x in r <==> x in records && Keep(x, cfg, clock)
    ensures var r := View(records, cfg, clock);
      forall i :: 0 <= i < |r| ==> Contains(Lower(r[i].studentName), Lower(cfg.query))
    ensures cfg.query == [] && cfg.window == All ==>
      multiset(View(records, cfg, clock)) == multiset(records)
    ensures var r := View(records, cfg, clock);
      forall i, j :: 0 <= i < j < |r| ==> InOrder(KeyOf(r[i], cfg.key), KeyOf(r[j], cfg.key), cfg.dir)
    ensures forall v :: WithKey(View(records, cfg, clock), cfg.key, v)
                     == WithKey(Visible(records, cfg, clock), cfg.key, v)
  {
    var vis := Visible(records, cfg, clock);
    var lt := Before(cfg.key, cfg.dir);
    var r := View(records, cfg, clock);
    forall x
      ensures x in r <==> x in vis
    {
      assert x in r <==> x in multiset(r);
      assert x in vis <==> x in multiset(vis);
    }
    forall i | 0 <= i < |r|
      ensures Contains(Lower(r[i].studentName), Lower(cfg.query))
    {
      assert r[i] in r;
      if cfg.query == [] {
        assert StartsWith(Lower(r[i].studentName), Lower(cfg.query));
      }
    }
    if cfg.query == [] && cfg.window == All {
      VisibleAll(records, cfg, clock);
    }
    BeforeIsOrder(cfg.key, cfg.dir);
    StableSort.SortIsSorted(vis, lt);
    forall i, j | 0 <= i < j < |r|
      ensures InOrder(KeyOf(r[i], cfg.key), KeyOf(r[j], cfg.key), cfg.dir)
    {
      assert !lt(r[j], r[i]);
    }
    forall v
      ensures WithKey(r, cfg.key, v) == WithKey(vis, cfg.key, v)
    {
      var x := KeyProbe(cfg.key, v);
      StableSort.SortIsStable(vis, x, lt);
      TiedIsWithKey(vis, cfg.key, cfg.dir, x);
      TiedIsWithKey(r, cfg.key, cfg.dir, x);
    }
  }

  // ---------------------------------------------------------------------
  // Tallies: counts per violation type, demerit per student

  /** One entry of a tally object: a key and its accumulated amount. */
  datatype Tally = Tally(key: string, amount: int)

  /** What a tally groups by and adds up. */
  datatype Measure = ViolationCount | StudentDemerit

  function LabelOf(r: Record, m: Measure): string {
    match m
    case ViolationCount => r.violationType
    case StudentDemerit => r.studentName
  }

  function Abs(x: int): nat {
    if x < 0 then -x else x
  }

  function AmountOf(r: Record, m: Measure): int {
    match m
    case ViolationCount => 1
    case StudentDemerit => Abs(r.demerit)
  }

  /** The amount accumulated for `key` over the records. */
  function Total(records: seq<Record>, m: Measure, key: string): int {
    if records == [] then 0
    else
      var last := records[|records| - 1];
      Total(records[..|records| - 1], m, key) + (if LabelOf(last, m) == key then AmountOf(last, m) else 0)
  }

  /** Where `key` first appears among the records' labels, or the length
      of the collection if it does not. */
  function FirstIndex(records: seq<Record>, m: Measure, key: string): (i: nat)
    ensures i <= |records|
    ensures i < |records| ==> LabelOf(records[i], m) == key
    ensures forall j :: 0 <= j < i ==> LabelOf(records[j], m) != key
  {
    if records == [] then 0
    else if LabelOf(records[0], m) == key then 0
    else 1 + FirstIndex(records[1..], m, key)
  }

  function Labels(ts: seq<Tally>): (ls: seq<string>)
    ensures |ls| == |ts| && forall i :: 0 <= i < |ts| ==> ls[i] == ts[i].key
  {
    seq(|ts|, i requires 0 <= i < |ts| => ts[i].key)
  }

  /** Each entry holds the total of its key. */
  ghost predicate Accumulated(records: seq<Record>, m: Measure, ts: seq<Tally>) {
    forall i :: 0 <= i < |ts| ==> ts[i].amount == Total(records, m, ts[i].key)
  }

  /** Every record's key has an entry. */
  ghost predicate Covers(records: seq<Record>, m: Measure, ts: seq<Tally>) {
    forall i :: 0 <= i < |records| ==> LabelOf(records[i], m) in Labels(ts)
  }

  /** Every entry's key is some record's key, and entries are listed in the
      order their keys first occur. */
  ghost predicate FirstSeenOrder(records: seq<Record>, m: Measure, ts: seq<Tally>) {
    && (forall i :: 0 <= i < |ts| ==> FirstIndex(records, m, ts[i].key) < |records|)
    && (forall i, j :: 0 <= i < j < |ts| ==>
          FirstIndex(records, m, ts[i].key) < FirstIndex(records, m, ts[j].key))
  }

  /** `ts` is the tally object built from `records` by
      `acc[key] = (acc[key] || 0) + amount`, its entries listed in the
      order their keys were first added. */
  ghost predicate Summarises(records: seq<Record>, m: Measure, ts: seq<Tally>) {
    Accumulated(records, m, ts) && Covers(records, m, ts) && FirstSeenOrder(records, m, ts)
  }

  ghost predicate DistinctLabels(ts: seq<Tally>) {
    forall i, j :: 0 <= i < j < |ts| ==> ts[i].key != ts[j].key
  }

  lemma SummarisesDistinct(records: seq<Record>, m: Measure, ts: seq<Tally>)
    requires FirstSeenOrder(records, m, ts)
    ensures DistinctLabels(ts)
  {
  }

  /** Adding `amount` to the entry for `key`, creating it at the end when
      it is missing. */
  function AddTo(ts: seq<Tally>, key: string, amount: int): (r: seq<Tally>)
    ensures key in Labels(ts) ==> |r| == |ts|
    ensures key !in Labels(ts) ==> r == ts + [Tally(key, amount)]
  {
    if ts == [] then [Tally(key, amount)]
    else if ts[0].key == key then [Tally(key, ts[0].amount + amount)] + ts[1..]
    else
      assert Labels(ts) == [ts[0].key] + Labels(ts[1..]);
      [ts[0]] + AddTo(ts[1..], key, amount)
  }

  /** An existing key's entry grows by `amount`; the others are untouched. */
  lemma {:induction false} AddToPresent(ts: seq<Tally>, key: string, amount: int)
    requires DistinctLabels(ts) && key in Labels(ts)
    ensures var r := AddTo(ts, key, amount);
      |r| == |ts| && forall i :: 0 <= i < |ts| ==>
        r[i] == if ts[i].key == key then Tally(key, ts[i].amount + amount) else ts[i]
  {
    var r := AddTo(ts, key, amount);
    var tail := ts[1..];
    assert Labels(ts) == [ts[0].key] + Labels(tail);
    if ts[0].key != key {
      assert key in Labels(tail);
      assert DistinctLabels(tail) by {
        forall i, j | 0 <= i < j < |tail|
          ensures tail[i].key != tail[j].key
        {
          assert tail[i] == ts[i + 1] && tail[j] == ts[j + 1];
        }
      }
      AddToPresent(tail, key, amount);
      var rest := AddTo(tail, key, amount);
      assert r == [ts[0]] + rest;
      forall i | 1 <= i < |ts|
        ensures r[i] == if ts[i].key == key then Tally(key, ts[i].amount + amount) else ts[i]
      {
        assert r[i] == rest[i - 1] && tail[i - 1] == ts[i];
      }
    } else {
      assert r == [Tally(key, ts[0].amount + amount)] + tail;
      forall i | 1 <= i < |ts|
        ensures ts[i].key != key && r[i] == ts[i]
      {
        assert ts[0].key != ts[i].key;
      }
    }
  }

  lemma TotalSnoc(s: seq<Record>, x: Record, m: Measure, key: string)
    ensures Total(s + [x], m, key) == Total(s, m, key) + (if LabelOf(x, m) == key then AmountOf(x, m) else 0)
  {
    assert (s + [x])[..|s|] == s;
  }

  lemma {:induction false} TotalAbsent(s: seq<Record>, m: Measure, key: string)
    requires forall i :: 0 <= i < |s| ==> LabelOf(s[i], m) != key
    ensures Total(s, m, key) == 0
  {
    if s != [] {
      TotalAbsent(s[..|s| - 1], m, key);
    }
  }

  lemma {:induction false} FirstIndexSnoc(s: seq<Record>, x: Record, m: Measure, key: string)
    ensures FirstIndex(s, m, key) < |s| ==> FirstIndex(s + [x], m, key) == FirstIndex(s, m, key)
    ensures FirstIndex(s, m, key) == |s| ==> FirstIndex(s + [x], m, key) >= |s|
    ensures FirstIndex(s, m, key) == |s| && LabelOf(x, m) == key ==> FirstIndex(s + [x], m, key) == |s|
  {
    if s != [] {
      assert (s + [x])[1..] == s[1..] + [x];
      FirstIndexSnoc(s[1..], x, m, key);
    }
  }

  /** With an existing key the entries keep their keys. */
  lemma PresentKeys(ts: seq<Tally>, l: string, a: int)
    requires DistinctLabels(ts) && l in Labels(ts)
    ensures var r := AddTo(ts, l, a);
      |r| == |ts| && Labels(r) == Labels(ts) && forall i :: 0 <= i < |ts| ==> r[i].key == ts[i].key
  {
    AddToPresent(ts, l, a);
  }

  lemma PresentAccumulated(s: seq<Record>, x: Record, m: Measure, ts: seq<Tally>)
    requires Accumulated(s, m, ts) && DistinctLabels(ts)
    requires LabelOf(x, m) in Labels(ts)
    ensures Accumulated(s + [x], m, AddTo(ts, LabelOf(x, m), AmountOf(x, m)))
  {
    var l, a := LabelOf(x, m), AmountOf(x, m);
    var r := AddTo(ts, l, a);
    AddToPresent(ts, l, a);
    forall i | 0 <= i < |r|
      ensures r[i].amount == Total(s + [x], m, r[i].key)
    {
      TotalSnoc(s, x, m, ts[i].key);
    }
  }

  lemma PresentCovers(s: seq<Record>, x: Record, m: Measure, ts: seq<Tally>)
    requires Covers(s, m, ts) && DistinctLabels(ts)
    requires LabelOf(x, m) in Labels(ts)
    ensures Covers(s + [x], m, AddTo(ts, LabelOf(x, m), AmountOf(x, m)))
  {
    var s' := s + [x];
    var r := AddTo(ts, LabelOf(x, m), AmountOf(x, m));
    PresentKeys(ts, LabelOf(x, m), AmountOf(x, m));
    forall i | 0 <= i < |s'|
      ensures LabelOf(s'[i], m) in Labels(r)
    {
      if i < |s| {
        assert s'[i] == s[i];
      }
    }
  }

  lemma PresentOrder(s: seq<Record>, x: Record, m: Measure, ts: seq<Tally>)
    requires FirstSeenOrder(s, m, ts) && DistinctLabels(ts)
    requires LabelOf(x, m) in Labels(ts)
    ensures FirstSeenOrder(s + [x], m, AddTo(ts, LabelOf(x, m), AmountOf(x, m)))
  {
    var r := AddTo(ts, LabelOf(x, m), AmountOf(x, m));
    PresentKeys(ts, LabelOf(x, m), AmountOf(x, m));
    forall i | 0 <= i < |r|
      ensures FirstIndex(s + [x], m, r[i].key) == FirstIndex(s, m, ts[i].key) < |s|
    {
      FirstIndexSnoc(s, x, m, ts[i].key);
    }
  }

  /** An existing key: its entry grows in place. */
  lemma AddStepPresent(s: seq<Record>, x: Record, m: Measure, ts: seq<Tally>)
    requires Summarises(s, m, ts)
    requires LabelOf(x, m) in Labels(ts)
    ensures Summarises(s + [x], m, AddTo(ts, LabelOf(x, m), AmountOf(x, m)))
  {
    SummarisesDistinct(s, m, ts);
    PresentAccumulated(s, x, m, ts);
    PresentCovers(s, x, m, ts);
    PresentOrder(s, x, m, ts);
  }

  lemma AbsentAccumulated(s: seq<Record>, x: Record, m: Measure, ts: seq<Tally>)
    requires Accumulated(s, m, ts) && Covers(s, m, ts)
    requires LabelOf(x, m) !in Labels(ts)
    ensures Accumulated(s + [x], m, ts + [Tally(LabelOf(x, m), AmountOf(x, m))])
  {
    var l := LabelOf(x, m);
    var r := ts + [Tally(l, AmountOf(x, m))];
    assert forall i :: 0 <= i < |s| ==> LabelOf(s[i], m) != l;
    TotalAbsent(s, m, l);
    TotalSnoc(s, x, m, l);
    forall i | 0 <= i < |ts|
      ensures r[i].amount == Total(s + [x], m, r[i].key)
    {
      TotalSnoc(s, x, m, ts[i].key);
    }
  }

  lemma AbsentCovers(s: seq<Record>, x: Record, m: Measure, ts: seq<Tally>)
    requires Covers(s, m, ts)
    ensures Covers(s + [x], m, ts + [Tally(LabelOf(x, m), AmountOf(x, m))])
  {
    var s' := s + [x];
    var r := ts + [Tally(LabelOf(x, m), AmountOf(x, m))];
    assert Labels(r) == Labels(ts) + [LabelOf(x, m)];
    forall i | 0 <= i < |s'|
      ensures LabelOf(s'[i], m) in Labels(r)
    {
      if i < |s| {
        assert s'[i] == s[i];
      }
    }
  }

  lemma AbsentOrder(s: seq<Record>, x: Record, m: Measure, ts: seq<Tally>)
    requires FirstSeenOrder(s, m, ts) && Covers(s, m, ts)
    requires LabelOf(x, m) !in Labels(ts)
    ensures FirstSeenOrder(s + [x], m, ts + [Tally(LabelOf(x, m), AmountOf(x, m))])
  {
    var l := LabelOf(x, m);
    var s' := s + [x];
    var r := ts + [Tally(l, AmountOf(x, m))];
    forall i | 0 <= i < |ts|
      ensures FirstIndex(s', m, r[i].key) == FirstIndex(s, m, ts[i].key) < |s|
    {
      assert r[i] == ts[i];
      FirstIndexSnoc(s, x, m, ts[i].key);
    }
    assert forall i :: 0 <= i < |s| ==> LabelOf(s[i], m) != l;
    assert FirstIndex(s, m, l) == |s|;
    FirstIndexSnoc(s, x, m, l);
    assert FirstIndex(s', m, r[|ts|].key) == |s|;
    forall i, j | 0 <= i < j < |r|
      ensures FirstIndex(s', m, r[i].key) < FirstIndex(s', m, r[j].key)
    {
      if j < |ts| {
        assert FirstIndex(s, m, ts[i].key) < FirstIndex(s, m, ts[j].key);
      }
    }
  }

  /** A new key: its entry is appended. */
  lemma AddStepAbsent(s: seq<Record>, x: Record, m: Measure, ts: seq<Tally>)
    requires Summarises(s, m, ts)
    requires LabelOf(x, m) !in Labels(ts)
    ensures Summarises(s + [x], m, AddTo(ts, LabelOf(x, m), AmountOf(x, m)))
  {
    AbsentAccumulated(s, x, m, ts);
    AbsentCovers(s, x, m, ts);
    AbsentOrder(s, x, m, ts);
  }

  /** One step of the `reduce`: the tally of all records but the last,
      extended by the last. */
  lemma AddStep(records: seq<Record>, m: Measure, ts: seq<Tally>)
    requires records != [] && Summarises(records[..|records| - 1], m, ts)
    ensures var x := records[|records| - 1];
      Summarises(records, m, AddTo(ts, LabelOf(x, m), AmountOf(x, m)))
  {
    var s, x := records[..|records| - 1], records[|records| - 1];
    assert s + [x] == records;
    if LabelOf(x, m) in Labels(ts) {
      AddStepPresent(s, x, m, ts);
    } else {
      AddStepAbsent(s, x, m, ts);
    }
  }

  /** The tally object of the records under measure `m`. */
  function Aggregate(records: seq<Record>, m: Measure): (ts: seq<Tally>)
    ensures Summarises(records, m, ts)
  {
    if records == [] then []
    else
      var x := records[|records| - 1];
      var prev := Aggregate(records[..|records| - 1], m);
      AddStep(records, m, prev);
      AddTo(prev, LabelOf(x, m), AmountOf(x, m))
  }

  /** The tally comparator `b[1] - a[1]`: larger amounts first. */
  predicate LargerFirst(a: Tally, b: Tally) {
    a.amount > b.amount
  }

  lemma LargerFirstIsOrder()
    ensures StableSort.StrictWeakOrder(LargerFirst)
  {
  }

  /** The tally entries sorted by amount, largest first, ties in key order. */
  function Ranked(records: seq<Record>, m: Measure): (r: seq<Tally>)
    ensures multiset(r) == multiset(Aggregate(records, m))
  {
    StableSort.Sort(Aggregate(records, m), LargerFirst)
  }

  lemma RankedSorted(records: seq<Record>, m: Measure)
    ensures var r := Ranked(records, m);
      forall i, j :: 0 <= i < j < |r| ==> r[i].amount >= r[j].amount
  {
    LargerFirstIsOrder();
    StableSort.SortIsSorted(Aggregate(records, m), LargerFirst);
  }

  // ---------------------------------------------------------------------
  // Statistics

  /** The number of records dated `day`. */
  function CountOn(records: seq<Record>, day: string): nat {
    if records == [] then 0
    else (if records[0].date == day then 1 else 0) + CountOn(records[1..], day)
  }

  const NoViolation: string := "Tiada"

  /** `topViolation`: "Tiada" for an empty collection, otherwise the key of
      the first entry of the tally sorted by count. */
  function TopViolation(records: seq<Record>): (v: string)
    ensures |records| == 0 ==> v == NoViolation
    ensures |records| > 0 ==> FirstIndex(records, ViolationCount, v) < |records|
  {
    if |records| == 0 then NoViolation
    else
      var ts := Aggregate(records, ViolationCount);
      assert LabelOf(records[0], ViolationCount) in Labels(ts);
      var head := Ranked(records, ViolationCount)[0];
      assert head in multiset(ts);
      assert exists q :: 0 <= q < |ts| && ts[q] == head;
      head.key
  }

  datatype Stats = Stats(today: nat, total: nat, topViolation: string)

  /** The dashboard's headline numbers over the whole collection. */
  function ComputeStats(records: seq<Record>, today: string): (s: Stats)
    ensures s.total == |records|
    ensures s.today <= s.total
  {
    CountOnBound(records, today);
    Stats(CountOn(records, today), |records|, TopViolation(records))
  }

  lemma {:induction false} CountOnBound(records: seq<Record>, day: string)
    ensures CountOn(records, day) <= |records|
  {
    if records != [] {
      CountOnBound(records[1..], day);
    }
  }

  /** `today` is the number of rows the `daily` filter shows without
      search text. */
  lemma {:induction false} TodayIsDailyView(records: seq<Record>, clock: Clock, k: SortKey, d: Direction)
    ensures ComputeStats(records, clock.today).today
         == |View(records, ViewConfig("", Daily, k, d), clock)|
  {
    var cfg := ViewConfig("", Daily, k, d);
    DailyCount(records, cfg, clock);
  }

  lemma {:induction false} DailyCount(records: seq<Record>, cfg: ViewConfig, clock: Clock)
    requires cfg.query == "" && cfg.window == Daily
    ensures CountOn(records, clock.today) == |Visible(records, cfg, clock)|
  {
    if records != [] {
      DailyCount(records[1..], cfg, clock);
    }
  }

  /** How many records carry violation type `v`. */
  function Occurrences(records: seq<Record>, v: string): int {
    Total(records, ViolationCount, v)
  }

  /** No entry of a tally holds more than the head of its ranking. */
  lemma RankedHeadMax(ts: seq<Tally>)
    requires |ts| > 0
    ensures |StableSort.Sort(ts, LargerFirst)| > 0
    ensures forall q :: 0 <= q < |ts| ==> ts[q].amount <= StableSort.Sort(ts, LargerFirst)[0].amount
  {
    var r := StableSort.Sort(ts, LargerFirst);
    LargerFirstIsOrder();
    StableSort.SortIsSorted(ts, LargerFirst);
    forall q | 0 <= q < |ts|
      ensures ts[q].amount <= r[0].amount
    {
      assert ts[q] in multiset(r);
      var j :| 0 <= j < |r| && r[j] == ts[q];
      assert j == 0 || !LargerFirst(r[j], r[0]);
    }
  }

  /** The head of the ranking is the earliest tally entry with its
      amount: the stable sort keeps ties in tally order. */
  lemma RankedHeadFirst(ts: seq<Tally>) returns (p: nat)
    requires |ts| > 0
    ensures |StableSort.Sort(ts, LargerFirst)| > 0
    ensures p < |ts| && ts[p] == StableSort.Sort(ts, LargerFirst)[0]
    ensures forall q :: 0 <= q < p ==> ts[q].amount != ts[p].amount
  {
    var r := StableSort.Sort(ts, LargerFirst);
    var top := r[0];
    LargerFirstIsOrder();
    StableSort.SortIsStable(ts, top, LargerFirst);
    assert r == [top] + r[1..];
    StableSort.TiedWithAppend([top], r[1..], top, LargerFirst);
    p := StableSort.TiedWithHead(ts, top, LargerFirst);
  }

  /** The head of a tally sorted largest first is the earliest entry
      holding the largest amount. */
  lemma RankedHead(ts: seq<Tally>) returns (p: nat)
    requires |ts| > 0
    ensures |StableSort.Sort(ts, LargerFirst)| > 0
    ensures p < |ts| && ts[p] == StableSort.Sort(ts, LargerFirst)[0]
    ensures forall q :: 0 <= q < |ts| ==> ts[q].amount <= ts[p].amount
    ensures forall q :: 0 <= q < p ==> ts[q].amount < ts[p].amount
  {
    RankedHeadMax(ts);
    p := RankedHeadFirst(ts);
  }

  /** The most frequent violation type, ties going to the type met first:
      it occurs in the collection, no type occurs more often, and every
      record before its first occurrence has a strictly rarer type. */
  lemma TopViolationSpec(records: seq<Record>)
    ensures |records| == 0 ==> TopViolation(records) == NoViolation
    ensures |records| > 0 ==> FirstIndex(records, ViolationCount, TopViolation(records)) < |records|
    ensures forall i :: 0 <= i < |records| ==>
      Occurrences(records, records[i].violationType) <= Occurrences(records, TopViolation(records))
    ensures forall i :: 0 <= i < FirstIndex(records, ViolationCount, TopViolation(records)) && i < |records| ==>
      Occurrences(records, records[i].violationType) < Occurrences(records, TopViolation(records))
  {
    if |records| > 0 {
      var m := ViolationCount;
      var ts := Aggregate(records, m);
      var q0 := TallyOf(records, m, ts, 0);
      var p := RankedHead(ts);
      var top := ts[p];
      assert TopViolation(records) == top.key;
      assert top.amount == Occurrences(records, top.key);
      forall i | 0 <= i < |records|
        ensures Occurrences(records, records[i].violationType) <= top.amount
        ensures i < FirstIndex(records, m, top.key) ==>
          Occurrences(records, records[i].violationType) < top.amount
      {
        var q := TallyOf(records, m, ts, i);
      }
    }
  }

  /** The entry of the record at position `i`, which precedes every entry
      whose key first occurs after `i`. */
  lemma TallyOf(records: seq<Record>, m: Measure, ts: seq<Tally>, i: nat) returns (q: nat)
    requires Summarises(records, m, ts)
    requires i < |records|
    ensures q < |ts|
    ensures ts[q].key == LabelOf(records[i], m)
    ensures ts[q].amount == Total(records, m, LabelOf(records[i], m))
    ensures forall p :: 0 <= p < |ts| && i < FirstIndex(records, m, ts[p].key) ==> q < p
  {
    q := EntryOf(records, m, ts, i);
    EarlierEntry(records, m, ts, i, q);
  }

  /** The entry holding the key of the record at position `i`. */
  lemma EntryOf(records: seq<Record>, m: Measure, ts: seq<Tally>, i: nat) returns (q: nat)
    requires Covers(records, m, ts)
    requires i < |records|
    ensures q < |ts| && ts[q].key == LabelOf(records[i], m)
  {
    var l := LabelOf(records[i], m);
    assert l in Labels(ts);
    q :| 0 <= q < |ts| && Labels(ts)[q] == l;
  }

  lemma EarlierEntry(records: seq<Record>, m: Measure, ts: seq<Tally>, i: nat, q: nat)
    requires FirstSeenOrder(records, m, ts)
    requires i < |records| && q < |ts| && ts[q].key == LabelOf(records[i], m)
    ensures forall p :: 0 <= p < |ts| && i < FirstIndex(records, m, ts[p].key) ==> q < p
  {
    assert FirstIndex(records, m, ts[q].key) <= i;
  }

  // ---------------------------------------------------------------------
  // The demerit chart

  const ChartSize: nat := 8

  /** The first `n` entries of a tally sorted largest first. */
  function Leading(ts: seq<Tally>, n: nat): (r: seq<Tally>)
    ensures |r| <= n
  {
    var ranked := StableSort.Sort(ts, LargerFirst);
    if |ranked| <= n then ranked else ranked[..n]
  }

  /** The leading entries are entries of the tally. */
  lemma LeadingEntries(ts: seq<Tally>, n: nat)
    ensures var r := Leading(ts, n); forall i :: 0 <= i < |r| ==> r[i] in ts
  {
    var ranked := StableSort.Sort(ts, LargerFirst);
    var r := Leading(ts, n);
    forall i | 0 <= i < |r|
      ensures r[i] in ts
    {
      assert r[i] == ranked[i];
      assert ranked[i] in multiset(ts);
    }
  }

  /** The leading entries have distinct keys and non-increasing amounts. */
  lemma LeadingOrdered(ts: seq<Tally>, n: nat)
    requires DistinctLabels(ts)
    ensures DistinctLabels(Leading(ts, n))
    ensures var r := Leading(ts, n);
      forall i, j :: 0 <= i < j < |r| ==> r[i].amount >= r[j].amount
  {
    var ranked := StableSort.Sort(ts, LargerFirst);
    var r := Leading(ts, n);
    LargerFirstIsOrder();
    StableSort.SortIsSorted(ts, LargerFirst);
    var p := (a: Tally, b: Tally) => a.key != b.key;
    assert StableSort.Pairwise(ts, p);
    StableSort.SortKeepsPairwise(ts, LargerFirst, p);
    forall i, j | 0 <= i < j < |r|
      ensures r[i].key != r[j].key && r[i].amount >= r[j].amount
    {
      assert r[i] == ranked[i] && r[j] == ranked[j];
      assert !LargerFirst(ranked[j], ranked[i]);
    }
  }

  lemma LeadingPrefix(ts: seq<Tally>, n: nat)
    ensures var r := Leading(ts, n);
      forall i :: 0 <= i < |r| ==> r[i] == StableSort.Sort(ts, LargerFirst)[i]
  {
  }

  lemma LabelsMember(ts: seq<Tally>)
    ensures forall i :: 0 <= i < |ts| ==> ts[i].key in Labels(ts)
  {
    forall i | 0 <= i < |ts|
      ensures ts[i].key in Labels(ts)
    {
      assert Labels(ts)[i] == ts[i].key;
    }
  }

  /** An entry is missing from the leading ones only when `n` entries hold
      at least its amount. */
  lemma LeadingMissing(ts: seq<Tally>, n: nat, q: nat)
    requires q < |ts| && ts[q].key !in Labels(Leading(ts, n))
    ensures |Leading(ts, n)| == n
    ensures var r := Leading(ts, n); forall i :: 0 <= i < |r| ==> r[i].amount >= ts[q].amount
  {
    var ranked := StableSort.Sort(ts, LargerFirst);
    var r := Leading(ts, n);
    LargerFirstIsOrder();
    StableSort.SortIsSorted(ts, LargerFirst);
    assert ts[q] in multiset(ranked);
    var j :| 0 <= j < |ranked| && ranked[j] == ts[q];
    LeadingPrefix(ts, n);
    LabelsMember(r);
    assert j >= |r|;
    forall i | 0 <= i < |r|
      ensures r[i].amount >= ts[q].amount
    {
      assert r[i] == ranked[i];
      assert !LargerFirst(ranked[j], ranked[i]);
    }
  }

  /** The chart's bars: demerit per student over the shown records, largest
      first, at most eight. */
  function ChartData(shown: seq<Record>): (r: seq<Tally>)
    ensures |r| <= ChartSize
  {
    Leading(Aggregate(shown, StudentDemerit), ChartSize)
  }

  /** Each bar is a shown student's total of absolute demerit points, no
      student appears twice, bars never increase from left to right, and a
      student is left out only when eight students have at least their
      total. */
  lemma ChartSpec(shown: seq<Record>)
    ensures var r := ChartData(shown);
      forall i :: 0 <= i < |r| ==>
        FirstIndex(shown, StudentDemerit, r[i].key) < |shown|
        && r[i].amount == Total(shown, StudentDemerit, r[i].key)
    ensures var r := ChartData(shown);
      forall i, j :: 0 <= i < j < |r| ==> r[i].key != r[j].key && r[i].amount >= r[j].amount
    ensures var r := ChartData(shown);
      forall k :: 0 <= k < |shown| && shown[k].studentName !in Labels(r) ==>
        |r| == ChartSize
        && forall i :: 0 <= i < |r| ==> r[i].amount >= Total(shown, StudentDemerit, shown[k].studentName)
  {
    var m := StudentDemerit;
    var ts := Aggregate(shown, m);
    SummarisesDistinct(shown, m, ts);
    LeadingOrdered(ts, ChartSize);
    LeadingTotals(shown, m, ts, ChartSize);
    LeadingOmits(shown, m, ts, ChartSize);
  }

  /** Each leading entry holds the total of a key that occurs. */
  lemma LeadingTotals(records: seq<Record>, m: Measure, ts: seq<Tally>, n: nat)
    requires Accumulated(records, m, ts) && FirstSeenOrder(records, m, ts)
    ensures var r := Leading(ts, n);
      forall i :: 0 <= i < |r| ==>
        FirstIndex(records, m, r[i].key) < |records| && r[i].amount == Total(records, m, r[i].key)
  {
    var r := Leading(ts, n);
    LeadingEntries(ts, n);
    forall i | 0 <= i < |r|
      ensures FirstIndex(records, m, r[i].key) < |records| && r[i].amount == Total(records, m, r[i].key)
    {
      var q :| 0 <= q < |ts| && ts[q] == r[i];
    }
  }

  /** A record's key is missing from the leading entries only when `n`
      entries hold at least its total. */
  lemma LeadingOmits(records: seq<Record>, m: Measure, ts: seq<Tally>, n: nat)
    requires Summarises(records, m, ts)
    ensures var r := Leading(ts, n);
      forall k :: 0 <= k < |records| && LabelOf(records[k], m) !in Labels(r) ==>
        |r| == n && forall i :: 0 <= i < |r| ==> r[i].amount >= Total(records, m, LabelOf(records[k], m))
  {
    var r := Leading(ts, n);
    forall k | 0 <= k < |records| && LabelOf(records[k], m) !in Labels(r)
      ensures |r| == n
      ensures forall i :: 0 <= i < |r| ==> r[i].amount >= Total(records, m, LabelOf(records[k], m))
    {
      var q := EntryOf(records, m, ts, k);
      LeadingMissing(ts, n, q);
    }
  }
}

=== FILE: records.dfy ===
/** The discipline record and the values derived from its fields when the
    form is saved: the demerit points of a category and the weekday name. */
module Records {
  import opened Wrappers

  /** The three severity tiers a case can be filed under. */
  datatype Category = Ringan | Sederhana | Berat

  /** The category as it is stored and printed. */
  function CategoryName(c: Category): string {
    match c
    case Ringan => "SALAH LAKU RINGAN"
    case Sederhana => "SALAH LAKU SEDERHANA"
    case Berat => "SALAH LAKU BERAT"
  }

  /** Demerit points of a case: -20 for a serious case, -10 for a moderate
      one and -5 for every other category. */
  function Demerit(c: Category): (d: int)
    ensures d < 0
    ensures d == -20 <==> c == Berat
    ensures d == -10 <==> c == Sederhana
    ensures d == -5 <==> c !in {Berat, Sederhana}
  {
    if c == Berat then -20 else if c == Sederhana then -10 else -5
  }

  /** A serious case costs more points than a moderate one, which costs
      more than a light one, so the demerit value identifies the category. */
  lemma DemeritOrdersSeverity(a: Category, b: Category)
    ensures Demerit(Berat) < Demerit(Sederhana) < Demerit(Ringan)
    ensures Demerit(a) == Demerit(b) <==> a == b
  {
  }

  /** Weekday names indexed by the day of the week, Sunday first. */
  const DayNames: seq<string> := ["Ahad", "Isnin", "Selasa", "Rabu", "Khamis", "Jumaat", "Sabtu"]

  /** `dayNames[weekday]`; any index outside the table (the day of an
      unparseable date) gives `undefined`. */
  function DayName(weekday: int): (r: Option<string>)
    ensures r.Some? <==> 0 <= weekday < 7
    ensures r.Some? ==> r.value in DayNames
  {
    if 0 <= weekday < |DayNames| then Some(DayNames[weekday]) else None
  }

  /** The position of a name in the weekday table, if it is one. */
  function DayIndex(name: string): (r: Option<nat>)
    ensures r.Some? ==> r.value < 7 && DayNames[r.value] == name
    ensures r.None? ==> name !in DayNames
  {
    if name == "Ahad" then Some(0)
    else if name == "Isnin" then Some(1)
    else if name == "Selasa" then Some(2)
    else if name == "Rabu" then Some(3)
    else if name == "Khamis" then Some(4)
    else if name == "Jumaat" then Some(5)
    else if name == "Sabtu" then Some(6)
    else None
  }

  /** The weekday names are distinct: the stored name gives the weekday
      back. */
  lemma DayNameRoundTrip(weekday: int)
    requires 0 <= weekday < 7
    ensures DayIndex(DayName(weekday).value) == Some(weekday)
  {
  }

  /** One discipline case. `day` is missing when the date had no weekday;
      `createdAt` is missing in records imported from older files. */
  datatype Record = Record(
    id: string,
    studentName: string,
    date: string,
    day: Option<string>,
    time: string,
    studentClass: string,
    category: Category,
    violationType: string,
    demerit: int,
    location: string,
    reportedBy: string,
    actionTaken: string,
    details: string,
    createdAt: Option<int>)

  /** The identifiers present in a collection. */
  function Ids(s: seq<Record>): set<string> {
    set r | r in s :: r.id
  }

  /** No two records of the collection share an identifier. */
  ghost predicate UniqueIds(s: seq<Record>) {
    forall i, j :: 0 <= i < |s| && 0 <= j < |s| && i != j ==> s[i].id != s[j].id
  }
}

=== FILE: seqs.dfy ===
/** Order-preserving selection from a sequence. */
module Seqs {

  /** `r` is obtained from `s` by deleting elements, keeping the rest in
      their original relative order. */
  predicate IsSubsequence<T(==)>(r: seq<T>, s: seq<T>)
    decreases |s|
  {
    if r == [] then true
    else if s == [] then false
    else if r[0] == s[0] then IsSubsequence(r[1..], s[1..])
    else IsSubsequence(r, s[1..])
  }
}

=== FILE: stable_sort.dfy ===
/** Stable sorting under a comparator, the behaviour of JavaScript's
    `Array.prototype.sort` (stable since ECMAScript 2019).

    A comparator `cmp(a, b)` of the source is represented by the relation
    `lt(a, b) := cmp(a, b) < 0`: `a` must be placed strictly before `b`.
    The sort is an insertion sort; any stable sort under a strict weak order
    yields the same sequence, because the result is characterised by being a
    permutation (`Sort`), ordered (`SortIsSorted`) and keeping every class of
    tied elements in input order (`SortIsStable`). */
module StableSort {

  /** `lt` is a strict weak order: irreflexive, transitive, and
      incomparability is transitive (stated as negative transitivity). */
  ghost predicate StrictWeakOrder<T(!new)>(lt: (T, T) -> bool) {
    && (forall a :: !lt(a, a))
    && (forall a, b, c :: lt(a, b) && lt(b, c) ==> lt(a, c))
    && (forall a, b, c :: lt(a, c) ==> lt(a, b) || lt(b, c))
  }

  /** No element is placed strictly before an earlier one. */
  ghost predicate Sorted<T>(s: seq<T>, lt: (T, T) -> bool) {
    forall i, j :: 0 <= i < j < |s| ==> !lt(s[j], s[i])
  }

  /** Neither element must precede the other: the comparator returns 0. */
  predicate Tied<T>(lt: (T, T) -> bool, a: T, b: T) {
    !lt(a, b) && !lt(b, a)
  }

  /** The subsequence of `s` made of the elements tied with `x`. */
  function TiedWith<T>(s: seq<T>, x: T, lt: (T, T) -> bool): seq<T> {
    if s == [] then []
    else (if Tied(lt, x, s[0]) then [s[0]] else []) + TiedWith(s[1..], x, lt)
  }

  /** A property `p` holds of every pair of elements at distinct positions. */
  ghost predicate Pairwise<T>(s: seq<T>, p: (T, T) -> bool) {
    forall i, j :: 0 <= i < |s| && 0 <= j < |s| && i != j ==> p(s[i], s[j])
  }

  /** Where `x` goes when inserted into `ys`: after the leading run of
      elements that must precede it. */
  function InsertPos<T>(x: T, ys: seq<T>, lt: (T, T) -> bool): (k: nat)
    ensures k <= |ys|
    ensures forall i :: 0 <= i < k ==> lt(ys[i], x)
    ensures k == |ys| || !lt(ys[k], x)
  {
    if ys == [] || !lt(ys[0], x) then 0 else 1 + InsertPos(x, ys[1..], lt)
  }

  function Insert<T>(x: T, ys: seq<T>, lt: (T, T) -> bool): (r: seq<T>)
    ensures |r| == |ys| + 1
    ensures multiset(r) == multiset(ys) + multiset{x}
  {
    var k := InsertPos(x, ys, lt);
    assert ys == ys[..k] + ys[k..];
    ys[..k] + [x] + ys[k..]
  }

  /** Stable insertion sort; the result is a permutation of the input. */
  function Sort<T>(s: seq<T>, lt: (T, T) -> bool): (r: seq<T>)
    ensures |r| == |s|
    ensures multiset(r) == multiset(s)
  {
    if s == [] then []
    else
      assert s == [s[0]] + s[1..];
      Insert(s[0], Sort(s[1..], lt), lt)
  }

  lemma InsertElements<T>(x: T, ys: seq<T>, lt: (T, T) -> bool)
    ensures forall i :: 0 <= i < |Insert(x, ys, lt)| ==>
      Insert(x, ys, lt)[i] == InsertedAt(x, ys, lt, i)
  {
    var k := InsertPos(x, ys, lt);
    var r := Insert(x, ys, lt);
    assert r == ys[..k] + [x] + ys[k..];
    forall i | 0 <= i < |r|
      ensures r[i] == InsertedAt(x, ys, lt, i)
    {
      if i > k {
        assert r[i] == ys[k..][i - k - 1];
      }
    }
  }

  /** The element found at position `i` once `x` is inserted into `ys`. */
  function InsertedAt<T>(x: T, ys: seq<T>, lt: (T, T) -> bool, i: nat): T
    requires i <= |ys|
  {
    var k := InsertPos(x, ys, lt);
    if i < k then ys[i] else if i == k then x else ys[i - 1]
  }

  lemma {:induction false} InsertSorted<T(!new)>(x: T, ys: seq<T>, lt: (T, T) -> bool)
    requires StrictWeakOrder(lt)
    requires Sorted(ys, lt)
    ensures Sorted(Insert(x, ys, lt), lt)
  {
    var k := InsertPos(x, ys, lt);
    var r := Insert(x, ys, lt);
    InsertElements(x, ys, lt);
    forall j | k < j < |ys|
      ensures !lt(ys[j], x)
    {
      var yj, yk := ys[j], ys[k];
      assert lt(yj, x) ==> lt(yj, yk) || lt(yk, x);
    }
    forall i, j | 0 <= i < j < |r|
      ensures !lt(r[j], r[i])
    {
      assert r[i] == InsertedAt(x, ys, lt, i) && r[j] == InsertedAt(x, ys, lt, j);
      if i < k && j == k {
        var yi := ys[i];
        assert lt(yi, x);
        assert lt(x, yi) ==> lt(x, x);
      }
    }
  }

  /** The sort orders its result under any strict weak order. */
  lemma {:induction false} SortIsSorted<T(!new)>(s: seq<T>, lt: (T, T) -> bool)
    requires StrictWeakOrder(lt)
    ensures Sorted(Sort(s, lt), lt)
  {
    if s != [] {
      SortIsSorted(s[1..], lt);
      InsertSorted(s[0], Sort(s[1..], lt), lt);
    }
  }

  lemma {:induction false} TiedWithAppend<T>(a: seq<T>, b: seq<T>, x: T, lt: (T, T) -> bool)
    ensures TiedWith(a + b, x, lt) == TiedWith(a, x, lt) + TiedWith(b, x, lt)
  {
    if a == [] {
      assert a + b == b;
    } else {
      var h := if Tied(lt, x, a[0]) then [a[0]] else [];
      var ab := a + b;
      assert ab[0] == a[0] && ab[1..] == a[1..] + b;
      assert TiedWith(ab, x, lt) == h + TiedWith(a[1..] + b, x, lt);
      assert TiedWith(a, x, lt) == h + TiedWith(a[1..], x, lt);
      TiedWithAppend(a[1..], b, x, lt);
      assert h + (TiedWith(a[1..], x, lt) + TiedWith(b, x, lt))
          == (h + TiedWith(a[1..], x, lt)) + TiedWith(b, x, lt);
    }
  }

  lemma {:induction false} TiedWithNone<T>(s: seq<T>, x: T, lt: (T, T) -> bool)
    requires forall i :: 0 <= i < |s| ==> !Tied(lt, x, s[i])
    ensures TiedWith(s, x, lt) == []
  {
    if s != [] {
      TiedWithNone(s[1..], x, lt);
    }
  }

  /** An element that must precede `x` is not tied with anything tied with `x`. */
  lemma PrecedingNotTied<T(!new)>(y: T, x: T, z: T, lt: (T, T) -> bool)
    requires StrictWeakOrder(lt)
    requires lt(y, x) && Tied(lt, z, x)
    ensures !Tied(lt, z, y)
  {
    assert lt(y, z) || lt(z, x);
  }

  lemma PrefixNotTied<T(!new)>(a: seq<T>, x: T, z: T, lt: (T, T) -> bool)
    requires StrictWeakOrder(lt)
    requires forall i :: 0 <= i < |a| ==> lt(a[i], x)
    ensures Tied(lt, z, x) ==> TiedWith(a, z, lt) == []
  {
    if Tied(lt, z, x) {
      forall i | 0 <= i < |a|
        ensures !Tied(lt, z, a[i])
      {
        PrecedingNotTied(a[i], x, z, lt);
      }
      TiedWithNone(a, z, lt);
    }
  }

  /** Putting `x` between `a` and `b` adds it to its class of ties in front
      of the others, provided no element of that class lies in `a`. */
  lemma TiedSplice<T>(a: seq<T>, x: T, b: seq<T>, z: T, lt: (T, T) -> bool)
    requires Tied(lt, z, x) ==> TiedWith(a, z, lt) == []
    ensures TiedWith(a + [x] + b, z, lt) == TiedWith([x], z, lt) + TiedWith(a + b, z, lt)
  {
    var ta, tx, tb := TiedWith(a, z, lt), TiedWith([x], z, lt), TiedWith(b, z, lt);
    assert TiedWith(a + [x] + b, z, lt) == (ta + tx) + tb by {
      TiedWithAppend(a + [x], b, z, lt);
      TiedWithAppend(a, [x], z, lt);
    }
    assert TiedWith(a + b, z, lt) == ta + tb by {
      TiedWithAppend(a, b, z, lt);
    }
    assert tx == (if Tied(lt, z, x) then [x] else []) by {
      assert [x][0] == x && [x][1..] == [];
      assert TiedWith([x][1..], z, lt) == [];
    }
    assert (ta + tx) + tb == tx + (ta + tb);
  }

  /** Inserting `x` adds it to its class of ties in front of the others,
      provided no element of that class lies before the insertion point. */
  lemma InsertTies<T>(x: T, ys: seq<T>, z: T, lt: (T, T) -> bool)
    requires Tied(lt, z, x) ==> TiedWith(ys[..InsertPos(x, ys, lt)], z, lt) == []
    ensures TiedWith(Insert(x, ys, lt), z, lt) == TiedWith([x], z, lt) + TiedWith(ys, z, lt)
  {
    var k := InsertPos(x, ys, lt);
    var a, b := ys[..k], ys[k..];
    assert Insert(x, ys, lt) == a + [x] + b;
    assert ys == a + b;
    TiedSplice(a, x, b, z, lt);
  }

  lemma InsertStable<T(!new)>(x: T, ys: seq<T>, z: T, lt: (T, T) -> bool)
    requires StrictWeakOrder(lt)
    ensures TiedWith(Insert(x, ys, lt), z, lt) == TiedWith([x], z, lt) + TiedWith(ys, z, lt)
  {
    PrefixNotTied(ys[..InsertPos(x, ys, lt)], x, z, lt);
    InsertTies(x, ys, z, lt);
  }

  /** Stability: every class of tied elements keeps its input order. */
  lemma {:induction false} SortIsStable<T(!new)>(s: seq<T>, z: T, lt: (T, T) -> bool)
    requires StrictWeakOrder(lt)
    ensures TiedWith(Sort(s, lt), z, lt) == TiedWith(s, z, lt)
  {
    if s != [] {
      var t := s[1..];
      var st := Sort(t, lt);
      assert Sort(s, lt) == Insert(s[0], st, lt);
      SortIsStable(t, z, lt);
      InsertStable(s[0], st, z, lt);
      assert s == [s[0]] + t;
      TiedWithAppend([s[0]], t, z, lt);
    }
  }

  /** Sorting an already ordered sequence changes nothing. */
  lemma {:induction false} SortOfSorted<T(!new)>(s: seq<T>, lt: (T, T) -> bool)
    requires Sorted(s, lt)
    ensures Sort(s, lt) == s
  {
    if s != [] {
      assert Sorted(s[1..], lt) by {
        forall i, j | 0 <= i < j < |s[1..]|
          ensures !lt(s[1..][j], s[1..][i])
        {
          assert s[1..][j] == s[j + 1] && s[1..][i] == s[i + 1];
        }
      }
      SortOfSorted(s[1..], lt);
      if |s| > 1 {
        assert s[1..][0] == s[1];
        assert !lt(s[1], s[0]);
      }
      assert InsertPos(s[0], s[1..], lt) == 0;
    }
  }

  lemma InsertKeepsPairwise<T>(x: T, ys: seq<T>, lt: (T, T) -> bool, p: (T, T) -> bool)
    requires Pairwise(ys, p)
    requires forall i :: 0 <= i < |ys| ==> p(x, ys[i]) && p(ys[i], x)
    ensures Pairwise(Insert(x, ys, lt), p)
  {
    InsertElements(x, ys, lt);
    var k := InsertPos(x, ys, lt);
    var r := Insert(x, ys, lt);
    forall i, j | 0 <= i < |r| && 0 <= j < |r| && i != j
      ensures p(r[i], r[j])
    {
      assert r[i] == InsertedAt(x, ys, lt, i) && r[j] == InsertedAt(x, ys, lt, j);
    }
  }

  lemma PairwiseTail<T>(s: seq<T>, p: (T, T) -> bool)
    requires s != [] && Pairwise(s, p)
    ensures Pairwise(s[1..], p)
    ensures forall i :: 1 <= i < |s| ==> p(s[0], s[i]) && p(s[i], s[0])
  {
    var rest := s[1..];
    forall i, j | 0 <= i < |rest| && 0 <= j < |rest| && i != j
      ensures p(rest[i], rest[j])
    {
      assert rest[i] == s[i + 1] && rest[j] == s[j + 1];
    }
  }

  /** A property of all pairs of distinct positions survives the sort
      (used for identifier uniqueness). */
  lemma {:induction false} SortKeepsPairwise<T>(s: seq<T>, lt: (T, T) -> bool, p: (T, T) -> bool)
    requires Pairwise(s, p)
    ensures Pairwise(Sort(s, lt), p)
  {
    if s != [] {
      var rest := s[1..];
      PairwiseTail(s, p);
      SortKeepsPairwise(rest, lt, p);
      var ys := Sort(rest, lt);
      forall i | 0 <= i < |ys|
        ensures p(s[0], ys[i]) && p(ys[i], s[0])
      {
        assert ys[i] in multiset(ys);
        assert ys[i] in multiset(rest);
        var j :| 0 <= j < |rest| && rest[j] == ys[i];
        assert s[j + 1] == ys[i];
      }
      InsertKeepsPairwise(s[0], ys, lt, p);
    }
  }

  /** The first element tied with `x` in `s` is at a position before which
      nothing is tied with `x`. */
  lemma {:induction false} TiedWithHead<T>(s: seq<T>, x: T, lt: (T, T) -> bool) returns (p: nat)
    requires TiedWith(s, x, lt) != []
    ensures p < |s| && s[p] == TiedWith(s, x, lt)[0] && Tied(lt, x, s[p])
    ensures forall q :: 0 <= q < p ==> !Tied(lt, x, s[q])
  {
    if Tied(lt, x, s[0]) {
      p := 0;
    } else {
      var p' := TiedWithHead(s[1..], x, lt);
      p := p' + 1;
      forall q | 0 <= q < p
        ensures !Tied(lt, x, s[q])
      {
        if q > 0 {
          assert s[q] == s[1..][q - 1];
        }
      }
    }
  }
}

=== FILE: store.dfy ===
/** The record collection and the operations that change it: the form's
    save (create or edit), delete, import of a backup file and the startup
    backfill of seed records. Every change goes through `SaveOrder`, the
    newest-first ordering applied before the collection is persisted; only
    a stored collection that lacks no seed record is loaded as it was. */
module Store {
  import opened Wrappers
  import opened Records
  import opened Seqs
  import StableSort

  // ---------------------------------------------------------------------
  // The save order

  /** `createdAt || 0`: a missing creation time sorts as 0. */
  function CreatedKey(r: Record): int {
    match r.createdAt
    case Some(t) => t
    case None => 0
  }

  /** The save comparator `(b.createdAt || 0) - (a.createdAt || 0)` is
      negative exactly when `a` is newer. */
  predicate NewerFirst(a: Record, b: Record) {
    CreatedKey(a) > CreatedKey(b)
  }

  /** The records created at time `k`, in collection order. */
  function CreatedAt(s: seq<Record>, k: int): seq<Record> {
    if s == [] then []
    else (if CreatedKey(s[0]) == k then [s[0]] else []) + CreatedAt(s[1..], k)
  }

  /** Newest first, and each group of equal creation times in order. */
  ghost predicate NewestFirst(s: seq<Record>) {
    forall i, j :: 0 <= i < j < |s| ==> CreatedKey(s[i]) >= CreatedKey(s[j])
  }

  lemma NewerFirstIsOrder()
    ensures StableSort.StrictWeakOrder(NewerFirst)
  {
  }

  lemma {:induction false} TiedIsCreatedAt(s: seq<Record>, x: Record)
    ensures StableSort.TiedWith(s, x, NewerFirst) == CreatedAt(s, CreatedKey(x))
  {
    if s != [] {
      TiedIsCreatedAt(s[1..], x);
    }
  }

  /** A record created at time `k`, used to name a group of ties. */
  function Probe(k: int): (r: Record)
    ensures CreatedKey(r) == k
  {
    Record("", "", "", None, "", "", Ringan, "", 0, "", "", "", "", Some(k))
  }

  lemma SaveOrderFacts(s: seq<Record>)
    ensures NewestFirst(StableSort.Sort(s, NewerFirst))
    ensures forall k :: CreatedAt(StableSort.Sort(s, NewerFirst), k) == CreatedAt(s, k)
  {
    NewerFirstIsOrder();
    StableSort.SortIsSorted(s, NewerFirst);
    forall k
      ensures CreatedAt(StableSort.Sort(s, NewerFirst), k) == CreatedAt(s, k)
    {
      StableSort.SortIsStable(s, Probe(k), NewerFirst);
      TiedIsCreatedAt(s, Probe(k));
      TiedIsCreatedAt(StableSort.Sort(s, NewerFirst), Probe(k));
    }
  }

  /** `saveRecords`' sort: a permutation of the collection, newest first,
      records with equal creation times keeping their relative order. */
  function SaveOrder(s: seq<Record>): (r: seq<Record>)
    ensures multiset(r) == multiset(s)
    ensures NewestFirst(r)
    ensures forall k :: CreatedAt(r, k) == CreatedAt(s, k)
  {
    SaveOrderFacts(s);
    StableSort.Sort(s, NewerFirst)
  }

  /** Saving an already saved collection leaves it as it is. */
  lemma SaveOrderOfOrdered(s: seq<Record>)
    requires NewestFirst(s)
    ensures SaveOrder(s) == s
  {
    StableSort.SortOfSorted(s, NewerFirst);
  }

  lemma SaveOrderIdempotent(s: seq<Record>)
    ensures SaveOrder(SaveOrder(s)) == SaveOrder(s)
  {
    SaveOrderOfOrdered(SaveOrder(s));
  }

  /** The save order keeps identifiers unique. */
  lemma SaveOrderKeepsUnique(s: seq<Record>)
    requires UniqueIds(s)
    ensures UniqueIds(SaveOrder(s))
  {
    var p := (a: Record, b: Record) => a.id != b.id;
    assert StableSort.Pairwise(s, p);
    StableSort.SortKeepsPairwise(s, NewerFirst, p);
  }

  lemma SaveOrderIds(s: seq<Record>)
    ensures Ids(SaveOrder(s)) == Ids(s)
  {
    var r := SaveOrder(s);
    forall x
      ensures x in r <==> x in s
    {
      assert x in r <==> x in multiset(r);
      assert x in s <==> x in multiset(s);
    }
  }

  // ---------------------------------------------------------------------
  // The form

  /** The editable fields of the record form. */
  datatype Form = Form(
    studentName: string,
    date: string,
    time: string,
    studentClass: string,
    category: Category,
    violationType: string,
    location: string,
    reportedBy: string,
    actionTaken: string,
    details: string)

  const MissingFieldsMessage: string := "Sila pastikan Nama Pelajar dan Nama Pelapor diisi."

  /** The form loaded with a record's fields for editing. */
  function FormOf(r: Record): Form {
    Form(r.studentName, r.date, r.time, r.studentClass, r.category, r.violationType,
         r.location, r.reportedBy, r.actionTaken, r.details)
  }

  /** The record's fields replaced by the form's; the weekday name and the
      demerit are derived again, identifier and creation time are kept. */
  function ApplyForm(r: Record, f: Form, weekday: int): (e: Record)
    ensures e.id == r.id && e.createdAt == r.createdAt
    ensures FormOf(e) == f
    ensures e.demerit == Demerit(f.category) && e.day == DayName(weekday)
  {
    r.(studentName := f.studentName, date := f.date, day := DayName(weekday), time := f.time,
       studentClass := f.studentClass, category := f.category, violationType := f.violationType,
       demerit := Demerit(f.category), location := f.location, reportedBy := f.reportedBy,
       actionTaken := f.actionTaken, details := f.details)
  }

  /** Opening a consistent record for editing and saving it unchanged gives
      the same record back. */
  lemma EditUnchangedIsIdentity(r: Record, weekday: int)
    requires r.demerit == Demerit(r.category) && r.day == DayName(weekday)
    ensures ApplyForm(r, FormOf(r), weekday) == r
  {
  }

  /** The identifier of a new record: the prefix and a random suffix. */
  function NewId(suffix: string): string {
    "MTIJ-" + suffix
  }

  /** The record created from the form at time `now`. */
  function NewRecord(f: Form, suffix: string, weekday: int, now: int): (r: Record)
    ensures r.id == NewId(suffix) && r.createdAt == Some(now)
    ensures FormOf(r) == f
    ensures r.demerit == Demerit(f.category) && r.day == DayName(weekday)
  {
    Record(NewId(suffix), f.studentName, f.date, DayName(weekday), f.time, f.studentClass,
           f.category, f.violationType, Demerit(f.category), f.location, f.reportedBy,
           f.actionTaken, f.details, Some(now))
  }

  /** Replace in place every record with identifier `id` by the form's
      version of it. */
  function Edit(records: seq<Record>, id: string, f: Form, weekday: int): (r: seq<Record>)
    ensures |r| == |records|
    ensures forall i :: 0 <= i < |r| ==> r[i].id == records[i].id && r[i].createdAt == records[i].createdAt
    ensures forall i :: 0 <= i < |r| && records[i].id != id ==> r[i] == records[i]
    ensures forall i :: 0 <= i < |r| && records[i].id == id ==>
      FormOf(r[i]) == f && r[i].demerit == Demerit(f.category) && r[i].day == DayName(weekday)
  {
    seq(|records|, i requires 0 <= i < |records| =>
      if records[i].id == id then ApplyForm(records[i], f, weekday) else records[i])
  }

  lemma EditKeepsIds(records: seq<Record>, id: string, f: Form, weekday: int)
    ensures Ids(Edit(records, id, f, weekday)) == Ids(records)
    ensures UniqueIds(records) ==> UniqueIds(Edit(records, id, f, weekday))
  {
    var r := Edit(records, id, f, weekday);
    forall x | x in Ids(r)
      ensures x in Ids(records)
    {
      var i :| 0 <= i < |r| && r[i].id == x;
      assert records[i] in records;
    }
    forall x | x in Ids(records)
      ensures x in Ids(r)
    {
      var i :| 0 <= i < |records| && records[i].id == x;
      assert r[i] in r;
    }
  }

  /** An edit is in progress only for a non-empty identifier (`if (editingId)`). */
  predicate IsEditing(editingId: Option<string>) {
    editingId.Some? && editingId.value != ""
  }

  /** `handleSave`: reject the form without a student or reporter name;
      otherwise edit the record being edited, or prepend a new record, and
      save in newest-first order. */
  function HandleSave(records: seq<Record>, f: Form, editingId: Option<string>,
                      weekday: int, suffix: string, now: int): (r: Result<seq<Record>, string>)
    ensures r.Err? <==> f.studentName == "" || f.reportedBy == ""
    ensures r.Err? ==> r.error == MissingFieldsMessage
    ensures r.Ok? ==> NewestFirst(r.value)
    ensures r.Ok? && IsEditing(editingId) ==>
      multiset(r.value) == multiset(Edit(records, editingId.value, f, weekday))
    ensures r.Ok? && IsEditing(editingId) ==>
      forall k :: CreatedAt(r.value, k) == CreatedAt(Edit(records, editingId.value, f, weekday), k)
    ensures r.Ok? && !IsEditing(editingId) ==>
      multiset(r.value) == multiset(records) + multiset{NewRecord(f, suffix, weekday, now)}
    ensures r.Ok? && !IsEditing(editingId) ==>
      forall k :: CreatedAt(r.value, k) == CreatedAt([NewRecord(f, suffix, weekday, now)] + records, k)
  {
    if f.studentName == "" || f.reportedBy == "" then Err(MissingFieldsMessage)
    else if IsEditing(editingId) then Ok(SaveOrder(Edit(records, editingId.value, f, weekday)))
    else Ok(SaveOrder([NewRecord(f, suffix, weekday, now)] + records))
  }

  /** Saving keeps identifiers unique: an edit never changes identifiers,
      and a new record does when its generated identifier is not taken. */
  lemma HandleSaveKeepsUnique(records: seq<Record>, f: Form, editingId: Option<string>,
                              weekday: int, suffix: string, now: int)
    requires UniqueIds(records)
    requires !IsEditing(editingId) ==> NewId(suffix) !in Ids(records)
    ensures var r := HandleSave(records, f, editingId, weekday, suffix, now);
      r.Ok? ==> UniqueIds(r.value)
  {
    var r := HandleSave(records, f, editingId, weekday, suffix, now);
    if r.Ok? {
      if IsEditing(editingId) {
        EditKeepsIds(records, editingId.value, f, weekday);
        SaveOrderKeepsUnique(Edit(records, editingId.value, f, weekday));
      } else {
        var n := NewRecord(f, suffix, weekday, now);
        var s := [n] + records;
        forall i, j | 0 <= i < |s| && 0 <= j < |s| && i != j
          ensures s[i].id != s[j].id
        {
          if i == 0 {
            assert s[j] in records;
          } else if j == 0 {
            assert s[i] in records;
          } else {
            assert s[i] == records[i - 1] && s[j] == records[j - 1];
          }
        }
        SaveOrderKeepsUnique(s);
      }
    }
  }

  // ---------------------------------------------------------------------
  // Delete

  /** `records.filter(rec => rec.id !== id)`. */
  function Delete(records: seq<Record>, id: string): (r: seq<Record>)
    ensures IsSubsequence(r, records)
    ensures forall x :: multiset(r)[x] == if x.id == id then 0 else multiset(records)[x]
    ensures forall x :: x in r <==> x in records && x.id != id
    ensures id !in Ids(r)
  {
    if records == [] then []
    else
      assert records == [records[0]] + records[1..];
      if records[0].id == id then Delete(records[1..], id)
      else [records[0]] + Delete(records[1..], id)
  }

  /** Deleting from a newest-first collection keeps it newest first. */
  lemma {:induction false} DeleteKeepsNewestFirst(records: seq<Record>, id: string)
    requires NewestFirst(records)
    ensures NewestFirst(Delete(records, id))
  {
    if records != [] {
      var tail := records[1..];
      assert NewestFirst(tail) by {
        forall i, j | 0 <= i < j < |tail|
          ensures CreatedKey(tail[i]) >= CreatedKey(tail[j])
        {
          assert tail[i] == records[i + 1] && tail[j] == records[j + 1];
        }
      }
      DeleteKeepsNewestFirst(tail, id);
      var rest := Delete(tail, id);
      assert forall y :: y in tail ==> CreatedKey(y) <= CreatedKey(records[0]) by {
        forall y | y in tail
          ensures CreatedKey(y) <= CreatedKey(records[0])
        {
          var k :| 0 <= k < |tail| && tail[k] == y;
          assert records[k + 1] == y;
        }
      }
      if records[0].id != id {
        assert forall y :: y in rest ==> y in tail;
        NewestCons(records[0], rest);
      }
    }
  }

  /** A record no older than any of a newest-first collection can head it. */
  lemma NewestCons(x: Record, rest: seq<Record>)
    requires NewestFirst(rest)
    requires forall y :: y in rest ==> CreatedKey(y) <= CreatedKey(x)
    ensures NewestFirst([x] + rest)
  {
    var r := [x] + rest;
    forall i, j | 0 <= i < j < |r|
      ensures CreatedKey(r[i]) >= CreatedKey(r[j])
    {
      assert r[j] == rest[j - 1];
      if i > 0 {
        assert r[i] == rest[i - 1];
      }
    }
  }

  /** `handleDelete`: after the user confirms, the records with another
      identifier are saved; otherwise nothing changes. */
  function HandleDelete(records: seq<Record>, id: string, confirmed: bool): (r: seq<Record>)
    ensures !confirmed ==> r == records
    ensures confirmed ==> forall x :: multiset(r)[x] == if x.id == id then 0 else multiset(records)[x]
    ensures confirmed ==> NewestFirst(r)
    ensures confirmed ==> forall k :: CreatedAt(r, k) == CreatedAt(Delete(records, id), k)
  {
    if confirmed then SaveOrder(Delete(records, id)) else records
  }

  /** On a collection that is already newest first the confirmed delete is
      the plain filter: the re-sort moves nothing. */
  lemma HandleDeleteOfOrdered(records: seq<Record>, id: string)
    requires NewestFirst(records)
    ensures HandleDelete(records, id, true) == Delete(records, id)
  {
    DeleteKeepsNewestFirst(records, id);
    SaveOrderOfOrdered(Delete(records, id));
  }

  /** Deleting an identifier that is not present changes nothing. */
  lemma {:induction false} DeleteAbsent(records: seq<Record>, id: string)
    requires id !in Ids(records)
    ensures Delete(records, id) == records
  {
    if records != [] {
      assert records[0] in records;
      assert Ids(records[1..]) <= Ids(records);
      DeleteAbsent(records[1..], id);
    }
  }

  lemma DeleteIdempotent(records: seq<Record>, id: string)
    ensures Delete(Delete(records, id), id) == Delete(records, id)
  {
    DeleteAbsent(Delete(records, id), id);
  }

  /** A record whose identifier differs from all of `t`'s can head `t`
      without breaking uniqueness. */
  lemma UniqueCons(x: Record, t: seq<Record>)
    requires UniqueIds(t)
    requires forall y :: y in t ==> y.id != x.id
    ensures UniqueIds([x] + t)
  {
    var s := [x] + t;
    forall i, j | 0 <= i < |s| && 0 <= j < |s| && i != j
      ensures s[i].id != s[j].id
    {
      if i == 0 {
        assert s[j] in t;
      } else if j == 0 {
        assert s[i] in t;
      } else {
        assert s[i] == t[i - 1] && s[j] == t[j - 1];
      }
    }
  }

  lemma UniqueTail(s: seq<Record>)
    requires s != [] && UniqueIds(s)
    ensures UniqueIds(s[1..])
    ensures forall y :: y in s[1..] ==> y.id != s[0].id
  {
    forall i, j | 0 <= i < |s[1..]| && 0 <= j < |s[1..]| && i != j
      ensures s[1..][i].id != s[1..][j].id
    {
      assert s[1..][i] == s[i + 1] && s[1..][j] == s[j + 1];
    }
    forall y | y in s[1..]
      ensures y.id != s[0].id
    {
      var k :| 0 <= k < |s[1..]| && s[1..][k] == y;
      assert s[k + 1] == y;
    }
  }

  lemma {:induction false} DeleteKeepsUnique(records: seq<Record>, id: string)
    requires UniqueIds(records)
    ensures UniqueIds(Delete(records, id))
  {
    if records != [] {
      UniqueTail(records);
      DeleteKeepsUnique(records[1..], id);
      if records[0].id != id {
        UniqueCons(records[0], Delete(records[1..], id));
      }
    }
  }

  // ---------------------------------------------------------------------
  // Import and backfill

  /** The records of `incoming` whose identifier is not in `known`, in order. */
  function FreshOnes(incoming: seq<Record>, known: set<string>): (r: seq<Record>)
    ensures IsSubsequence(r, incoming)
    ensures forall x :: multiset(r)[x] == if x.id in known then 0 else multiset(incoming)[x]
    ensures forall x :: x in r <==> x in incoming && x.id !in known
  {
    if incoming == [] then []
    else
      assert incoming == [incoming[0]] + incoming[1..];
      if incoming[0].id in known then FreshOnes(incoming[1..], known)
      else [incoming[0]] + FreshOnes(incoming[1..], known)
  }

  lemma {:induction false} FreshOnesNone(incoming: seq<Record>)
    ensures FreshOnes(incoming, {}) == incoming
  {
    if incoming != [] {
      FreshOnesNone(incoming[1..]);
    }
  }

  lemma {:induction false} FreshOnesKeepsUnique(incoming: seq<Record>, known: set<string>)
    requires UniqueIds(incoming)
    ensures UniqueIds(FreshOnes(incoming, known))
  {
    if incoming != [] {
      UniqueTail(incoming);
      FreshOnesKeepsUnique(incoming[1..], known);
      if incoming[0].id !in known {
        UniqueCons(incoming[0], FreshOnes(incoming[1..], known));
      }
    }
  }

  /** `[...base, ...incoming.filter(r => !ids(base).has(r.id))]`: the
      collection followed by the incoming records it does not know yet. */
  function MergeNew(base: seq<Record>, incoming: seq<Record>): (r: seq<Record>)
    ensures |base| <= |r| && r[..|base|] == base
    ensures forall i :: |base| <= i < |r| ==> r[i].id !in Ids(base)
    ensures IsSubsequence(r[|base|..], incoming)
    ensures forall x :: multiset(r[|base|..])[x] == if x.id in Ids(base) then 0 else multiset(incoming)[x]
    ensures forall x :: x in incoming && x.id !in Ids(base) ==> x in r
    ensures Ids(r) == Ids(base) + Ids(incoming)
    ensures (forall x :: x in incoming ==> x.id in Ids(base)) ==> r == base
  {
    var added := FreshOnes(incoming, Ids(base));
    var r := base + added;
    assert r[|base|..] == added;
    assert forall i :: |base| <= i < |r| ==> r[i] in added;
    assert Ids(r) == Ids(base) + Ids(incoming) by {
      forall x | x in Ids(incoming)
        ensures x in Ids(r)
      {
        var y :| y in incoming && y.id == x;
        if x !in Ids(base) {
          assert y in added;
          assert y in r;
        }
      }
      forall x | x in Ids(r)
        ensures x in Ids(base) + Ids(incoming)
      {
        var y :| y in r && y.id == x;
        if y !in base {
          assert y in added;
        }
      }
    }
    assert (forall x :: x in incoming ==> x.id in Ids(base)) ==> added == [] by {
      if added != [] {
        assert added[0] in added;
      }
    }
    r
  }

  /** The merge keeps identifiers unique when both inputs have unique
      identifiers (duplicates inside `incoming` are not removed). */
  lemma MergeNewKeepsUnique(base: seq<Record>, incoming: seq<Record>)
    requires UniqueIds(base) && UniqueIds(incoming)
    ensures UniqueIds(MergeNew(base, incoming))
  {
    var added := FreshOnes(incoming, Ids(base));
    FreshOnesKeepsUnique(incoming, Ids(base));
    var r := MergeNew(base, incoming);
    assert r == base + added;
    forall i, j | 0 <= i < |r| && 0 <= j < |r| && i != j
      ensures r[i].id != r[j].id
    {
      if i < |base| && j < |base| {
        assert r[i] == base[i] && r[j] == base[j];
      } else if i >= |base| && j >= |base| {
        assert r[i] == added[i - |base|] && r[j] == added[j - |base|];
      } else if i < |base| {
        assert r[i] in base;
      } else {
        assert r[j] in base;
      }
    }
  }

  /** `importData` after the file is read and parsed: nothing changes when
      the file is not a JSON array (`parsed` is None) or the user declines;
      otherwise the unknown records are appended and the collection saved. */
  function Import(records: seq<Record>, parsed: Option<seq<Record>>, confirmed: bool): (r: seq<Record>)
    ensures parsed.None? || !confirmed ==> r == records
    ensures parsed.Some? && confirmed ==>
      && multiset(r) == multiset(MergeNew(records, parsed.value))
      && NewestFirst(r)
      && forall k :: CreatedAt(r, k) == CreatedAt(MergeNew(records, parsed.value), k)
  {
    if parsed.Some? && confirmed then SaveOrder(MergeNew(records, parsed.value)) else records
  }

  /** A file whose identifiers are all present adds nothing. */
  lemma ImportKnownAddsNothing(records: seq<Record>, file: seq<Record>)
    requires NewestFirst(records)
    requires forall x :: x in file ==> x.id in Ids(records)
    ensures Import(records, Some(file), true) == records
  {
    SaveOrderOfOrdered(records);
  }

  /** Exporting a saved collection and importing the file into an empty
      collection gives the same collection back. */
  lemma ExportImportRoundTrip(records: seq<Record>)
    requires NewestFirst(records)
    ensures Import([], Some(records), true) == records
  {
    var empty: seq<Record> := [];
    assert Ids(empty) == {};
    FreshOnesNone(records);
    assert MergeNew(empty, records) == empty + FreshOnes(records, {});
    assert empty + records == records;
    SaveOrderOfOrdered(records);
  }

  /** The startup load: with nothing stored the seed is saved; otherwise
      seed records whose identifier is missing are appended and the result
      saved, and when none is missing the stored collection is used as is. */
  function Load(stored: Option<seq<Record>>, seed: seq<Record>): (r: seq<Record>)
    ensures stored.None? ==> multiset(r) == multiset(seed)
    ensures stored.None? ==> NewestFirst(r) && forall k :: CreatedAt(r, k) == CreatedAt(seed, k)
    ensures stored.Some? ==>
      forall x :: x in r <==> x in stored.value || (x in seed && x.id !in Ids(stored.value))
    ensures stored.Some? ==> forall x ::
      multiset(r)[x] == multiset(stored.value)[x] + (if x.id in Ids(stored.value) then 0 else multiset(seed)[x])
    ensures stored.Some? && !(Ids(seed) <= Ids(stored.value)) ==>
      NewestFirst(r) && forall k :: CreatedAt(r, k) == CreatedAt(MergeNew(stored.value, seed), k)
    ensures stored.Some? ==> Ids(r) == Ids(stored.value) + Ids(seed)
    ensures stored.Some? && (forall x :: x in seed ==> x.id in Ids(stored.value)) ==> r == stored.value
  {
    match stored
    case None => SaveOrder(seed)
    case Some(saved) =>
      var missing := FreshOnes(seed, Ids(saved));
      if |missing| > 0 then
        BackfillFacts(saved, seed);
        SaveOrder(MergeNew(saved, seed))
      else
        assert forall x :: x in seed && x.id !in Ids(saved) ==> x in missing;
        assert Ids(seed) <= Ids(saved);
        assert forall x :: multiset(missing)[x] == 0;
        saved
  }

  /** What the backfill branch of the load saves. */
  lemma BackfillFacts(saved: seq<Record>, seed: seq<Record>)
    ensures var r := SaveOrder(MergeNew(saved, seed));
      forall x :: x in r <==> x in saved || (x in seed && x.id !in Ids(saved))
    ensures Ids(SaveOrder(MergeNew(saved, seed))) == Ids(saved) + Ids(seed)
    ensures var r := SaveOrder(MergeNew(saved, seed));
      forall x :: multiset(r)[x] == multiset(saved)[x] + (if x.id in Ids(saved) then 0 else multiset(seed)[x])
  {
    var m := MergeNew(saved, seed);
    var missing := FreshOnes(seed, Ids(saved));
    assert m == saved + missing;
    SaveOrderIds(m);
    assert forall x :: x in SaveOrder(m) <==> x in multiset(m);
  }
}

=== FILE: text.dfy ===
/** String helpers with JavaScript semantics, on strings as sequences of
    characters: the `<` order on strings, `toLowerCase` (ASCII letters),
    `includes`, `split`/`join` on one separator character, decimal
    rendering of naturals, `replace(/\s+/g, ...)` and `replace(string, ...)`. */
module Text {

  // ---------------------------------------------------------------------
  // Ordering

  /** JavaScript's `a < b` on strings: the first differing character
      decides; a proper prefix comes first. */
  predicate StrLess(a: string, b: string) {
    if |a| == 0 then |b| > 0
    else if |b| == 0 then false
    else if a[0] != b[0] then a[0] < b[0]
    else StrLess(a[1..], b[1..])
  }

  lemma {:induction false} StrLessIrreflexive(a: string)
    ensures !StrLess(a, a)
  {
    if |a| > 0 {
      StrLessIrreflexive(a[1..]);
    }
  }

  lemma {:induction false} StrLessTransitive(a: string, b: string, c: string)
    requires StrLess(a, b) && StrLess(b, c)
    ensures StrLess(a, c)
  {
    if |a| > 0 && a[0] == b[0] && b[0] == c[0] {
      StrLessTransitive(a[1..], b[1..], c[1..]);
    }
  }

  /** Any two different strings are ordered one way or the other. */
  lemma {:induction false} StrLessTotal(a: string, b: string)
    ensures a == b || StrLess(a, b) || StrLess(b, a)
  {
    if |a| > 0 && |b| > 0 && a[0] == b[0] {
      StrLessTotal(a[1..], b[1..]);
      if a[1..] == b[1..] {
        assert a == [a[0]] + a[1..] && b == [b[0]] + b[1..];
      }
    }
  }

  // ---------------------------------------------------------------------
  // Case mapping and substring search

  /** `toLowerCase` on one character, for the ASCII letters. */
  function LowerChar(c: char): char {
    if 'A' <= c <= 'Z' then (c as int + 32) as char else c
  }

  function Lower(s: string): (r: string)
    ensures |r| == |s|
    ensures forall i :: 0 <= i < |r| ==> !('A' <= r[i] <= 'Z')
    ensures forall i :: 0 <= i < |s| && !('A' <= s[i] <= 'Z') ==> r[i] == s[i]
    ensures forall i :: 0 <= i < |s| && 'A' <= s[i] <= 'Z' ==> r[i] as int == s[i] as int + 32
  {
    seq(|s|, i requires 0 <= i < |s| => LowerChar(s[i]))
  }

  /** `needle` occurs in `hay` starting at position `i`. */
  ghost predicate OccursAt(hay: string, needle: string, i: int) {
    0 <= i && i + |needle| <= |hay| && hay[i..i + |needle|] == needle
  }

  predicate StartsWith(s: string, prefix: string) {
    |prefix| <= |s| && s[..|prefix|] == prefix
  }

  lemma OccursShift(hay: string, needle: string)
    requires hay != []
    ensures forall i :: 0 <= i ==> (OccursAt(hay[1..], needle, i) <==> OccursAt(hay, needle, i + 1))
  {
    forall i | 0 <= i
      ensures OccursAt(hay[1..], needle, i) <==> OccursAt(hay, needle, i + 1)
    {
      if i + |needle| <= |hay| - 1 {
        assert hay[1..][i..i + |needle|] == hay[i + 1..i + 1 + |needle|];
      }
    }
  }

  /** JavaScript's `hay.includes(needle)`. */
  function Contains(hay: string, needle: string): (r: bool)
    ensures r <==> exists i :: OccursAt(hay, needle, i)
    decreases |hay|
  {
    if StartsWith(hay, needle) then
      assert OccursAt(hay, needle, 0);
      true
    else if hay == [] then
      assert forall i :: !OccursAt(hay, needle, i);
      false
    else
      OccursShift(hay, needle);
      assert forall i :: OccursAt(hay, needle, i) ==> i == 0 || OccursAt(hay[1..], needle, i - 1);
      Contains(hay[1..], needle)
  }

  /** The first position at or after `from` where `pat` occurs, or -1. */
  function FindFrom(s: string, pat: string, from: nat): (i: int)
    ensures i == -1 || (from <= i && OccursAt(s, pat, i))
    ensures i == -1 ==> forall j :: from <= j ==> !OccursAt(s, pat, j)
    ensures i != -1 ==> forall j :: from <= j < i ==> !OccursAt(s, pat, j)
    decreases |s| - from
  {
    if from + |pat| > |s| then -1
    else if s[from..from + |pat|] == pat then from
    else FindFrom(s, pat, from + 1)
  }

  /** JavaScript's `s.replace(pat, rep)` with a string pattern: only the
      first occurrence is replaced. */
  function ReplaceFirst(s: string, pat: string, rep: string): (r: string)
    ensures (forall j :: !OccursAt(s, pat, j)) ==> r == s
    ensures forall i :: OccursAt(s, pat, i) && (forall j :: 0 <= j < i ==> !OccursAt(s, pat, j)) ==>
      r == s[..i] + rep + s[i + |pat|..]
  {
    var i := FindFrom(s, pat, 0);
    if i < 0 then s else s[..i] + rep + s[i + |pat|..]
  }

  // ---------------------------------------------------------------------
  // Splitting on a separator character

  /** Inverse of `Split`: the parts glued with the separator. */
  function Join(parts: seq<string>, sep: char): string {
    if |parts| == 0 then []
    else if |parts| == 1 then parts[0]
    else parts[0] + [sep] + Join(parts[1..], sep)
  }

  /** JavaScript's `s.split(sep)` for a one-character separator: always at
      least one part (`"".split("-")` is `[""]`), none containing `sep`. */
  function Split(s: string, sep: char): (parts: seq<string>)
    ensures |parts| >= 1
    ensures forall i :: 0 <= i < |parts| ==> sep !in parts[i]
    decreases |s|
  {
    if s == [] then [[]]
    else
      var rest := Split(s[1..], sep);
      if s[0] == sep then [[]] + rest
      else [[s[0]] + rest[0]] + rest[1..]
  }

  /** Gluing the parts back gives the original string. */
  lemma {:induction false} JoinSplit(s: string, sep: char)
    ensures Join(Split(s, sep), sep) == s
  {
    if s != [] {
      var rest := Split(s[1..], sep);
      JoinSplit(s[1..], sep);
      if s[0] == sep {
        assert ([[]] + rest)[1..] == rest;
        assert s == [sep] + s[1..];
      } else if |rest| == 1 {
        assert s == [s[0]] + s[1..];
      } else {
        var parts := [[s[0]] + rest[0]] + rest[1..];
        assert parts[1..] == rest[1..];
        assert s == [s[0]] + s[1..];
      }
    }
  }

  /** The first part is the text before the first separator. */
  lemma {:induction false} SplitHead(s: string, sep: char)
    ensures var h := Split(s, sep)[0];
      |h| <= |s| && h == s[..|h|] && (|h| < |s| ==> s[|h|] == sep)
    decreases |s|
  {
    if s != [] && s[0] != sep {
      SplitHead(s[1..], sep);
    }
  }

  lemma {:induction false} SplitPlain(p: string, sep: char)
    requires sep !in p
    ensures Split(p, sep) == [p]
  {
    if p != [] {
      SplitPlain(p[1..], sep);
      assert p == [p[0]] + p[1..];
    }
  }

  lemma {:induction false} SplitCons(p: string, t: string, sep: char)
    requires sep !in p
    ensures Split(p + [sep] + t, sep) == [p] + Split(t, sep)
  {
    var s := p + [sep] + t;
    if p == [] {
      assert s[1..] == t;
    } else {
      assert s[0] == p[0];
      assert s[1..] == p[1..] + [sep] + t;
      SplitCons(p[1..], t, sep);
      assert p == [p[0]] + p[1..];
    }
  }

  /** Splitting a join of separator-free parts gives the parts back. */
  lemma {:induction false} SplitJoin(parts: seq<string>, sep: char)
    requires |parts| >= 1
    requires forall i :: 0 <= i < |parts| ==> sep !in parts[i]
    ensures Split(Join(parts, sep), sep) == parts
  {
    if |parts| == 1 {
      SplitPlain(parts[0], sep);
    } else {
      SplitJoin(parts[1..], sep);
      SplitCons(parts[0], Join(parts[1..], sep), sep);
      assert parts == [parts[0]] + parts[1..];
    }
  }

  // ---------------------------------------------------------------------
  // Decimal numerals

  predicate IsDigit(c: char) {
    '0' <= c <= '9'
  }

  predicate AllDigits(s: string) {
    forall i :: 0 <= i < |s| ==> IsDigit(s[i])
  }

  function DigitChar(d: nat): (c: char)
    requires d < 10
    ensures IsDigit(c)
  {
    ('0' as int + d) as char
  }

  function DigitValue(c: char): nat
    requires IsDigit(c)
  {
    c as int - '0' as int
  }

  /** The value of a string of decimal digits (leading zeros allowed). */
  function ParseDecimal(s: string): nat
    requires AllDigits(s)
  {
    if s == [] then 0 else ParseDecimal(s[..|s| - 1]) * 10 + DigitValue(s[|s| - 1])
  }

  /** `String(n)` for a natural number: its canonical decimal numeral,
      which reads back as `n` and has no leading zero. */
  function NatToString(n: nat): (s: string)
    ensures 1 <= |s| && AllDigits(s)
    ensures ParseDecimal(s) == n
    ensures |s| == 1 <==> n < 10
    ensures |s| > 1 ==> s[0] != '0'
  {
    if n < 10 then [DigitChar(n)]
    else
      var h := NatToString(n / 10);
      var s := h + [DigitChar(n % 10)];
      assert s[..|s| - 1] == h;
      s
  }

  /** A leading zero does not change the value of a numeral. */
  lemma {:induction false} ParseLeadingZero(s: string)
    requires AllDigits(s)
    ensures AllDigits("0" + s) && ParseDecimal("0" + s) == ParseDecimal(s)
  {
    if s != [] {
      var z := "0" + s;
      assert z[..|z| - 1] == "0" + s[..|s| - 1];
      ParseLeadingZero(s[..|s| - 1]);
    }
  }

  // ---------------------------------------------------------------------
  // Whitespace

  /** A character matched by JavaScript's `\s`: the WhiteSpace and
      LineTerminator code points of ECMAScript. */
  predicate IsSpace(c: char) {
    var n := c as int;
    || n == 0x20 || (0x09 <= n <= 0x0D) || n == 0xA0 || n == 0x1680
    || (0x2000 <= n <= 0x200A) || n == 0x2028 || n == 0x2029
    || n == 0x202F || n == 0x205F || n == 0x3000 || n == 0xFEFF
  }

  ghost predicate NoSpace(s: string) {
    forall i :: 0 <= i < |s| ==> !IsSpace(s[i])
  }

  /** `s` without its leading run of whitespace. */
  function DropSpaces(s: string): (r: string)
    ensures |r| <= |s| && r == s[|s| - |r|..]
    ensures r == [] || !IsSpace(r[0])
    ensures forall i :: 0 <= i < |s| - |r| ==> IsSpace(s[i])
  {
    if s != [] && IsSpace(s[0]) then DropSpaces(s[1..]) else s
  }

  /** `s.replace(/\s+/g, "_")`: every maximal run of whitespace becomes a
      single underscore. */
  function SquashSpaces(s: string): (r: string)
    ensures NoSpace(r)
    ensures |r| <= |s|
    decreases |s|
  {
    if s == [] then []
    else if IsSpace(s[0]) then "_" + SquashSpaces(DropSpaces(s))
    else [s[0]] + SquashSpaces(s[1..])
  }

  /** Text without whitespace is left as it is. */
  lemma {:induction false} SquashNoSpace(s: string)
    requires NoSpace(s)
    ensures SquashSpaces(s) == s
  {
    if s != [] {
      SquashNoSpace(s[1..]);
      assert s == [s[0]] + s[1..];
    }
  }

  /** Squashing twice is squashing once. */
  lemma SquashIdempotent(s: string)
    ensures SquashSpaces(SquashSpaces(s)) == SquashSpaces(s)
  {
    SquashNoSpace(SquashSpaces(s));
  }

  lemma {:induction false} DropSpacesRun(w: string, b: string)
    requires forall i :: 0 <= i < |w| ==> IsSpace(w[i])
    requires b == [] || !IsSpace(b[0])
    ensures DropSpaces(w + b) == b
  {
    if w != [] {
      assert (w + b)[1..] == w[1..] + b;
      DropSpacesRun(w[1..], b);
    } else {
      assert w + b == b;
    }
  }

  lemma {:induction false} DropSpacesAppend(a: string, t: string)
    requires a != [] && !IsSpace(a[|a| - 1])
    ensures DropSpaces(a + t) == DropSpaces(a) + t
  {
    if IsSpace(a[0]) {
      assert (a + t)[1..] == a[1..] + t;
      DropSpacesAppend(a[1..], t);
    }
  }

  lemma SquashRunFront(w: string, b: string)
    requires |w| > 0 && forall i :: 0 <= i < |w| ==> IsSpace(w[i])
    requires b == [] || !IsSpace(b[0])
    ensures SquashSpaces(w + b) == "_" + SquashSpaces(b)
  {
    assert (w + b)[0] == w[0];
    DropSpacesRun(w, b);
  }

  lemma SquashCons(c: char, t: string)
    requires !IsSpace(c)
    ensures SquashSpaces([c] + t) == [c] + SquashSpaces(t)
  {
    assert ([c] + t)[1..] == t;
  }

  lemma SquashSpaceHead(a: string, t: string)
    requires a != [] && IsSpace(a[0]) && !IsSpace(a[|a| - 1])
    ensures SquashSpaces(a + t) == "_" + SquashSpaces(DropSpaces(a) + t)
    ensures SquashSpaces(a) == "_" + SquashSpaces(DropSpaces(a))
  {
    DropSpacesAppend(a, t);
    assert (a + t)[0] == a[0];
  }

  lemma Assoc3(p: string, x: string, tail: string)
    ensures p + (x + "_" + tail) == (p + x) + "_" + tail
  {
  }

  lemma SquashRunLetter(a: string, t: string, tail: string)
    requires a != [] && !IsSpace(a[0])
    requires SquashSpaces(a[1..] + t) == SquashSpaces(a[1..]) + "_" + tail
    ensures SquashSpaces(a + t) == SquashSpaces(a) + "_" + tail
  {
    var c, rest := a[0], a[1..];
    assert a == [c] + rest;
    assert a + t == [c] + (rest + t);
    SquashCons(c, rest + t);
    SquashCons(c, rest);
    calc {
      SquashSpaces(a + t);
      [c] + SquashSpaces(rest + t);
      [c] + (SquashSpaces(rest) + "_" + tail);
      ([c] + SquashSpaces(rest)) + "_" + tail;
      SquashSpaces(a) + "_" + tail;
    }
  }

  lemma SquashRunSpace(a: string, t: string, tail: string)
    requires a != [] && IsSpace(a[0]) && !IsSpace(a[|a| - 1])
    requires SquashSpaces(DropSpaces(a) + t) == SquashSpaces(DropSpaces(a)) + "_" + tail
    ensures SquashSpaces(a + t) == SquashSpaces(a) + "_" + tail
  {
    var d := DropSpaces(a);
    SquashSpaceHead(a, t);
    var x, y := SquashSpaces(d), SquashSpaces(d + t);
    Assoc3("_", x, tail);
  }

  /** Replacing one maximal whitespace run `w` (between text `a` that does
      not end in whitespace and text `b` that does not start with it)
      contributes exactly one underscore. */
  lemma {:induction false} SquashRun(a: string, w: string, b: string)
    requires a == [] || !IsSpace(a[|a| - 1])
    requires |w| > 0 && forall i :: 0 <= i < |w| ==> IsSpace(w[i])
    requires b == [] || !IsSpace(b[0])
    ensures SquashSpaces(a + (w + b)) == SquashSpaces(a) + "_" + SquashSpaces(b)
    decreases |a|
  {
    if a == [] {
      assert a + (w + b) == w + b;
      SquashRunFront(w, b);
    } else if !IsSpace(a[0]) {
      SquashRun(a[1..], w, b);
      SquashRunLetter(a, w + b, SquashSpaces(b));
    } else {
      SquashRun(DropSpaces(a), w, b);
      SquashRunSpace(a, w + b, SquashSpaces(b));
    }
  }
}

=== FILE: wrappers.dfy ===
/** The two wrappers of the model: `Option` is a value the app may lack
    (a JavaScript `undefined`, a missing stored collection, an unparsable
    file), and `Result` is an operation that either succeeds or stops with
    the message the user is shown. */
module Wrappers {

  datatype Option<+T> = None | Some(value: T)

  datatype Result<+T, +E> = Ok(value: T) | Err(error: E)
}
